=== FILE: README.md ===
# Habit tracker analytics, modelled in Dafny

This project models the logic inside the habit tracker's dashboard components.

- **Completion rule.** A habit is complete on a day iff the counts of its logs on that day add up to at least its `target_count`. The components repeat this rule in six places.
- **Backward streak walk.** Both streak computations are a `while (true)` loop. The loop steps back one day at a time and stops at the first incomplete day.
- **Day series and summary figures.** These are the Monday-to-Sunday chart of the analytics panel and the last-seven-days trend chart, with its average and best day. They also cover the summary tiles: completed today, completion rate, longest streak and the week's log count. Finally, they cover the per-habit figures: totals, average count per log, streak and completion rate.
- **Small state updates.** These are the reminder list and its weekday picker, the card's count stepper and log handler, the dashboard's category filter and per-card log split, and the new-habit form's validation and normalisation.

Instants are integers counting local-time milliseconds. `Days.DayOf` maps an instant to its calendar-day index, with day 0 being 1970-01-01, a Thursday. The date checks the components use all become equality or order of day indices:

- `isSameDay`;
- the inclusive `startOfDay`/`endOfDay` ranges;
- equal `'yyyy-MM-dd'` renderings;
- `startOfWeek`/`endOfWeek` with `weekStartsOn: 1`.

The completion rule is defined once, as `Completion.CompletedOn`. The streak is defined once, as the recursive `Completion.Streak`. Its termination measure is the number of days back to the earliest log, because a complete day needs a log when the target is at least one.

Each component's own computation is modelled in the component's order of filters and loops. A lemma or contract then ties it to the shared definitions:

- `HabitAnalytics.WalkStreak` and `HabitStats.CalculateStreak` equal `Completion.Streak`;
- `Graph.Last7Days` and `HabitAnalytics.WeeklyData` produce `Completion.DayStatOf` per day;
- `HabitCard.CardCompletionIsCompletionRule` and `HabitStats.CompletedTodayIsCompletionRule` tie the card and the tile to `Completion.CompletedOn` and `Completion.CompletedCount`.

`Math.round(x)` is rounding half up. On the exact quotient `n / d` it is `Rounding.RoundDiv(n, d)`. `parseInt` and `String.prototype.trim` follow sections 19.2.5 and 22.1.3.32 of ECMA-262 (`Text` module).

Modules, one per component plus shared helpers:

- Helpers: `Seqs` (filter), `Types` (the `habits`/`habit_logs` row shapes), `Text`, `Days`, `Rounding`.
- Shared rules: `Completion`.
- One module per component: `HabitAnalytics`, `HabitStats`, `Graph`, `HabitCard`, `ReminderSettings`, `Dashboard`, `AddHabitModal`.

Two safeguards one might expect are absent from the code, and the model follows the code:

- **No cap on the streak walk.** The walk has no lookback cap. The model proves instead that the uncapped walk ends whenever `target_count ≥ 1`, after at most as many steps as the habit has logs (`Completion.StreakAtMostLogs`).
- **No error for a bad target.** Nothing rejects a `target_count` that is not positive. The model makes `target_count ≥ 1` a precondition of the members that need it. `Completion.TargetBelowOneAlwaysComplete` shows why: without it, every day is complete and the walk never stops.

## Model

| member | source | states |
|---|---|---|
| `Types.FindHabit` | src/components/dashboard/HabitAnalytics.tsx:48-49 | `habits.find` by id: none exactly when no habit carries the id; otherwise a listed habit with that id, the first such |
| `Rounding.RoundDiv` | src/components/dashboard/HabitAnalytics.tsx:54 | `Math.round(n / d)` for `d > 0`: the result is within one half of the exact quotient, `.5` going up |
| `Rounding.RoundDivMonotone` | src/components/dashboard/Graph.tsx:76 | rounding preserves the order of numerators over one denominator |
| `Rounding.RoundDivExact` | src/components/dashboard/Graph.tsx:76 | an exact quotient is rounded to itself |
| `Rounding.Percentage` | src/components/dashboard/HabitAnalytics.tsx:39 | `total > 0 ? Math.round(part / total * 100) : 0`: 0 without a total; otherwise within one half of `100 · part / total`, halves going up; 0 without a part, 100 when part equals total, within 0..100 when the part is at most the total |
| `Days.DayOf` | src/components/dashboard/Graph.tsx:27-28 | an instant lies between the start and the end of its own day |
| `Days.DayOfStartOfDay` | src/components/dashboard/HabitAnalytics.tsx:20 | the first instant of a day belongs to that day |
| `Days.SubDays` | src/components/dashboard/HabitAnalytics.tsx:70 | `subDays(t, n)` lands `n` days earlier at the same time of day |
| `Days.Weekday` | src/components/dashboard/HabitAnalytics.tsx:18 | the weekday number is in 0..6 |
| `Days.WeekdayNumbering` | src/components/dashboard/HabitAnalytics.tsx:18 | the `getDay()` numbering: day 0, 1970-01-01, is a Thursday (4), and each day is the weekday after the one before |
| `Days.WeekStart` | src/components/dashboard/HabitAnalytics.tsx:18 | `startOfWeek(now, { weekStartsOn: 1 })` is a Monday no more than six days before the day |
| `Days.WeekEnd` | src/components/dashboard/HabitAnalytics.tsx:19 | `endOfWeek` is the Sunday six days after that Monday |
| `Days.EachDay` | src/components/dashboard/HabitAnalytics.tsx:20 | `eachDayOfInterval` lists every day from the first to the last, in order |
| `Text.TrimStart` | src/components/dashboard/AddHabitModal.tsx:44 | removes exactly the leading white space: a suffix of the input, all dropped characters white space, no white space first |
| `Text.TrimEnd` | src/components/dashboard/AddHabitModal.tsx:44 | removes exactly the trailing white space |
| `Text.Trim` | src/components/dashboard/AddHabitModal.tsx:44 | `trim()` is the infix with only white space cut from both ends and no white space at either end |
| `Text.BlankIffAllWhitespace` | src/components/dashboard/AddHabitModal.tsx:33 | `!title.trim()` holds exactly when every character is white space |
| `Text.TrimIdempotent` | src/components/dashboard/AddHabitModal.tsx:44-45 | trimming twice is trimming once |
| `Text.ParseInt` | src/components/dashboard/AddHabitModal.tsx:156 | `parseInt` skips leading white space; nothing left is NaN; a negative result needs a leading minus; a leading decimal digit that does not open a `0x` prefix always gives a number of at least 0 |
| `Text.ParseBlankIsNaN` | src/components/dashboard/AddHabitModal.tsx:156 | `parseInt` of an empty or blank field is NaN |
| `Text.ShowNatValue` | src/components/dashboard/AddHabitModal.tsx:155-156 | the decimal digits of a number read back as that number |
| `Text.UnsignedDecimalParse` | src/components/dashboard/AddHabitModal.tsx:156 | `parseInt` of a string of decimal digits is their value |
| `Text.NegativeSignParse` | src/components/dashboard/AddHabitModal.tsx:156 | a leading minus negates the unsigned reading of the rest |
| `Text.NegativeShownParse` | src/components/dashboard/AddHabitModal.tsx:156 | minus followed by the digits of `m` parses to `-m` |
| `Text.ParseShowRoundTrip` | src/components/dashboard/AddHabitModal.tsx:155-156 | `parseInt(String(n)) == n` for every integer |
| `Seqs.FilterMembers` | src/components/dashboard/Dashboard.tsx:112 | `filter` keeps exactly the elements that pass the test |
| `Seqs.FilterIsSubsequence` | src/components/dashboard/Dashboard.tsx:112 | `filter` keeps the relative order of what it keeps |
| `Seqs.FilterMultiset` | src/components/dashboard/Dashboard.tsx:262 | `filter` keeps each passing element as often as it occurs and drops every other |
| `Completion.SumCounts` | src/components/dashboard/HabitAnalytics.tsx:31 | the `reduce` count sum: 0 for no logs, a single log's count for one log; concatenation, order and sign are stated by the three lemmas below |
| `Completion.SumCountsNonNegative` | src/components/dashboard/HabitAnalytics.tsx:31 | logs with no negative count sum to at least 0 |
| `Completion.SumCountsConcat` | src/components/dashboard/HabitAnalytics.tsx:31 | the count sum of two lists put together is the sum of their sums |
| `Completion.SumCountsPermutation` | src/components/dashboard/HabitAnalytics.tsx:31 | the count sum does not depend on the order of the logs |
| `Completion.CompletedOn` | src/components/dashboard/HabitAnalytics.tsx:29-33 | the one completion rule: the habit's summed count on the day reaches its target; each site's own test is proved equal to it by the `...IsCompletionRule`, `WalkStep`, `HabitStreakStep` and `CountStep` lemmas |
| `Completion.DayTotalAppend` | src/components/dashboard/HabitAnalytics.tsx:24-33 | a further log changes a habit's day total only if it is that habit's log on that day, and then by its count |
| `Completion.DayTotalPermutation` | src/components/dashboard/HabitAnalytics.tsx:24-33 | a habit's day total does not depend on the order of the logs |
| `Completion.SameDayAsIsOnDay` | src/components/dashboard/HabitAnalytics.tsx:61-64 | the `isSameDay` filter with an instant keeps exactly the logs of that instant's day |
| `Completion.NonzeroTotalHasLog` | src/components/dashboard/HabitAnalytics.tsx:61-66 | a non-zero day total needs a log of that habit on that day |
| `Completion.NoLogsNotCompleted` | src/components/dashboard/HabitAnalytics.tsx:66-68 | with a target of at least one, a day with no log of the habit is incomplete |
| `Completion.TargetBelowOneAlwaysComplete` | src/components/dashboard/HabitAnalytics.tsx:60-73 | with a target below one and no negative counts, every day is complete, so the walk never meets the day that ends it |
| `Completion.CompleteDayHasLog` | src/components/dashboard/HabitAnalytics.tsx:60-73 | a complete day lies on or after the earliest log, so each step of the walk brings it closer to the earliest log |
| `Completion.EarliestDay` | src/components/dashboard/HabitAnalytics.tsx:60-73 | the earliest log day is no later than the day of any log |
| `Completion.Streak` | src/components/dashboard/HabitAnalytics.tsx:57-74 | the reference streak: consecutive complete days ending at the day, recursing back while the day is complete and terminating because the days back to the earliest log decrease; what it counts is stated by `StreakIsRun` and `StreakIsRunLength` |
| `Completion.StreakIsRun` | src/components/dashboard/HabitAnalytics.tsx:57-74 | every day the streak counts is complete and the day just before the run is incomplete; in particular the streak is 0 when the day itself is incomplete |
| `Completion.StreakIsRunLength` | src/components/dashboard/HabitAnalytics.tsx:57-74 | any run of `n` complete days ending at the day, with an incomplete day before it, has length equal to the streak |
| `Completion.StreakStep` | src/components/dashboard/HabitAnalytics.tsx:68-73 | a complete day adds one to the previous day's streak; an incomplete day has streak 0 |
| `Completion.StreakAtMostLogsUpTo` | src/components/dashboard/HabitAnalytics.tsx:57-74 | the streak at a day is at most the number of the habit's logs up to that day |
| `Completion.StreakAtMostLogs` | src/components/dashboard/HabitAnalytics.tsx:57-74 | the streak is at most the number of the habit's logs |
| `Completion.CompletedCount` | src/components/dashboard/HabitAnalytics.tsx:29-33 | the number of habits complete on a day is at most the number of habits |
| `Completion.CompletedCountAppend` | src/components/dashboard/Graph.tsx:40-47 | a further habit adds one to the count exactly when it is complete |
| `Completion.CompletedCountPermutation` | src/components/dashboard/HabitAnalytics.tsx:29-33 | the count does not depend on the order of the habits |
| `Completion.DayStatOf` | src/components/dashboard/HabitAnalytics.tsx:35-39 | a day's point has the day, `completed` equal to the number of habits meeting the completion rule that day, `total` equal to the number of habits, and a percentage within one half of `100 · completed / total` (halves up), in 0..100, 0 without habits and 100 when all are complete |
| `HabitAnalytics.WeekDays` | src/components/dashboard/HabitAnalytics.tsx:18-20 | seven consecutive days starting on the Monday of the current week, today among them |
| `HabitAnalytics.ChartTestIsCompletionRule` | src/components/dashboard/HabitAnalytics.tsx:24-33 | the chart's test, the habit's logs among the day's logs reaching its target, is the completion rule for that day |
| `HabitAnalytics.WeeklyEntry` | src/components/dashboard/HabitAnalytics.tsx:23-40 | the entry computed with the chart's filter order is the completion aggregate of its day |
| `HabitAnalytics.WeeklyData` | src/components/dashboard/HabitAnalytics.tsx:22-42 | `getWeeklyData` has exactly seven entries, the `i`-th for the Monday of the current week plus `i`, today included |
| `HabitAnalytics.AveragePerLog` | src/components/dashboard/HabitAnalytics.tsx:54 | `avgPerDay` is 0 without logs, otherwise the mean count per log rounded half up |
| `HabitAnalytics.CompletionRate` | src/components/dashboard/HabitAnalytics.tsx:81 | `completionRate` is 0 without logs, otherwise `100 · totalCount / (target · totalLogs)` rounded half up |
| `HabitAnalytics.SumCountsConstant` | src/components/dashboard/HabitAnalytics.tsx:53 | logs all carrying count `c` sum to `c` times their number |
| `HabitAnalytics.SumCountsBounded` | src/components/dashboard/HabitAnalytics.tsx:53 | logs with counts in `0..c` sum to between 0 and `c` per log |
| `HabitAnalytics.CompletionRateFull` | src/components/dashboard/HabitAnalytics.tsx:81 | when every log's count equals the target and there is a log, the rate is exactly 100 |
| `HabitAnalytics.CompletionRateInRange` | src/components/dashboard/HabitAnalytics.tsx:81 | counts no larger than the target give a rate in 0..100 |
| `HabitAnalytics.AveragePerLogConstant` | src/components/dashboard/HabitAnalytics.tsx:54 | logs that all carry one count average exactly that count |
| `HabitAnalytics.WalkStep` | src/components/dashboard/HabitAnalytics.tsx:61-73 | the loop's test on the current date decides whether that day's streak extends the previous day's or is 0 |
| `HabitAnalytics.WalkStreak` | src/components/dashboard/HabitAnalytics.tsx:57-74 | the `while (true)` walk over the habit's own logs terminates and returns the streak of today |
| `HabitAnalytics.GetHabitStats` | src/components/dashboard/HabitAnalytics.tsx:47-83 | null exactly for an id no habit carries; otherwise the number and count sum of the habit's logs, their rounded average, the streak of today and the completion rate; only the found habit needs a target of at least one |
| `HabitStats.CompletedToday` | src/components/dashboard/HabitStats.tsx:13-18 | `completedToday ≤ totalHabits` |
| `HabitStats.CompletedTodayIsCompletionRule` | src/components/dashboard/HabitStats.tsx:14-17 | when every log the tile receives is from one day, its count is the number of habits complete on that day |
| `HabitStats.TodayCompletionRate` | src/components/dashboard/HabitStats.tsx:21 | 0 without habits, otherwise `100 · completedToday / totalHabits` rounded half up, within 0..100, and 100 when all are complete |
| `HabitStats.HabitStreak` | src/components/dashboard/HabitStats.tsx:35-36 | the streak of an id no habit carries is 0 |
| `HabitStats.OfHabitOnSameDayIsOnDay` | src/components/dashboard/HabitStats.tsx:29-33 | the combined id-and-`isSameDay` filter keeps exactly the habit's logs of that day |
| `HabitStats.HabitStreakStep` | src/components/dashboard/HabitStats.tsx:38-45 | the loop's test on the current date decides whether that day's streak extends the previous day's or is 0 |
| `HabitStats.CalculateStreak` | src/components/dashboard/HabitStats.tsx:24-49 | `calculateStreak` terminates and returns 0 for an unknown id, else the streak of today of the first habit carrying the id |
| `HabitStats.StreaksOf` | src/components/dashboard/HabitStats.tsx:51 | one streak per habit |
| `HabitStats.AllStreaks` | src/components/dashboard/HabitStats.tsx:51 | `habits.map(habit => calculateStreak(habit.id))` is the list of every habit's streak, in order |
| `HabitStats.MaxOf` | src/components/dashboard/HabitStats.tsx:51 | `Math.max` of a non-empty list is at least every element and is one of them |
| `HabitStats.MaxStreak` | src/components/dashboard/HabitStats.tsx:51 | `maxStreak` is 0 without habits; otherwise at least every habit's streak and equal to one of them |
| `HabitStats.HabitStreakOfListed` | src/components/dashboard/HabitStats.tsx:35 | the first habit carrying an id has that id's streak |
| `HabitStats.WeeklyLogs` | src/components/dashboard/HabitStats.tsx:54-59 | `weeklyLogs` is exactly the logs whose day is one of today−6 through today, no more logs than given |
| `HabitStats.WeeklyLogsSplit` | src/components/dashboard/HabitStats.tsx:54-59 | the weekly count is the number of logs up to today less the number of logs up to seven days ago (day today−7) |
| `Graph.BetweenIsOnDay` | src/components/dashboard/Graph.tsx:27-34 | the logs between a day's inclusive start and end bounds are exactly that day's logs |
| `Graph.ChartCountIsDayTotal` | src/components/dashboard/Graph.tsx:41-42 | a habit's summed count among the day's logs is its day total |
| `Graph.CountStep` | src/components/dashboard/Graph.tsx:40-46 | one `forEach` step adds one exactly when the habit reaches its target |
| `Graph.CountCompleted` | src/components/dashboard/Graph.tsx:37-47 | the `forEach` counter is the number of habits complete on the day |
| `Graph.Last7Days` | src/components/dashboard/Graph.tsx:22-60 | seven points, oldest first, the `k`-th for today−6+k, each the completion aggregate of its day |
| `Graph.SumPercentagesBounds` | src/components/dashboard/Graph.tsx:62 | percentages within `lo..hi` sum to between `lo` and `hi` per point |
| `Graph.AverageWithinBounds` | src/components/dashboard/Graph.tsx:62 | the average completion lies between the lowest and the highest point |
| `Graph.ChartAverageInRange` | src/components/dashboard/Graph.tsx:62 | the chart's average completion lies within 0..100 |
| `Graph.DisplayedAverage` | src/components/dashboard/Graph.tsx:76 | the shown average is within one half of the exact mean percentage |
| `Graph.DisplayedAverageWithinBounds` | src/components/dashboard/Graph.tsx:76 | the shown, rounded average also lies between the lowest and the highest point |
| `Graph.BestDay` | src/components/dashboard/Graph.tsx:136 | the best day is one of the points, its percentage is at least every point's, and no earlier point has as high a percentage |
| `HabitCard.TodayLogs` | src/components/dashboard/HabitCard.tsx:21-23 | `todayLogs` keeps exactly the card's logs whose day is the selected day, each as often as it occurs |
| `HabitCard.TotalToday` | src/components/dashboard/HabitCard.tsx:25 | `totalToday` is the summed count of the card's logs whose day is the selected day |
| `HabitCard.IsCompleted` | src/components/dashboard/HabitCard.tsx:26 | `isCompleted` holds iff `totalToday` reaches the target; with a target of at least one it needs a log on the selected day |
| `HabitCard.CardCompletionIsCompletionRule` | src/components/dashboard/HabitCard.tsx:25-26 | given the habit's logs, `totalToday` is the day total and `isCompleted` is the completion rule |
| `HabitCard.CardStatus` | src/components/dashboard/HabitCard.tsx:115-129 | Completed iff `isCompleted`; In Progress iff not completed and `totalToday > 0`; Not Started otherwise |
| `HabitCard.PositiveSum` | src/components/dashboard/HabitCard.tsx:25 | logs with positive counts sum to at least their number |
| `HabitCard.NotStartedIffNoLogs` | src/components/dashboard/HabitCard.tsx:115-129 | with a positive target and positive counts, Not Started exactly when nothing was logged that day |
| `HabitCard.ProgressWidth` | src/components/dashboard/HabitCard.tsx:109 | the bar width for any non-zero target is `100 · totalToday / target` whenever that is below 100, and 100 otherwise, so it never exceeds 100; with a target of at least one it is not negative for a non-negative total and is exactly 100 iff the habit is completed; with a negative target and a non-negative total it is at most 0 while the habit counts as completed |
| `HabitCard.BarWidth` | src/components/dashboard/HabitCard.tsx:109 | `Math.min((total / target) * 100, 100)` for a non-zero target: at most 100, equal to `100 · total / target` below 100; for a positive target exactly 100 iff the total reaches it and not negative for a non-negative total; for a negative target at most 0 for a non-negative total |
| `HabitCard.ShareFacts` | src/components/dashboard/HabitCard.tsx:109 | for a positive target, the unclamped share `(total / target) · 100` times the target is `100 · total`; it is below 100 exactly while the total is short of the target, and not negative for a non-negative total |
| `HabitCard.NegativeShareFacts` | src/components/dashboard/HabitCard.tsx:109 | for a negative target, the unclamped share times the target is still `100 · total`, and a non-negative total gives a share of at most 0 |
| `HabitCard.NegativeTargetCompletedEmptyBar` | src/components/dashboard/HabitCard.tsx:101-109 | a negative target with no negative count shows the card as Completed while its progress bar has width at most 0 |
| `HabitCard.Decrement` | src/components/dashboard/HabitCard.tsx:137 | `Math.max(1, count - 1)`: exactly 1 from a count of 1 or less, and one less than any count above 1 |
| `HabitCard.Increment` | src/components/dashboard/HabitCard.tsx:146 | the plus button raises the count |
| `HabitCard.DecrementUndoesIncrement` | src/components/dashboard/HabitCard.tsx:137-146 | minus undoes plus on every count of at least 1 |
| `HabitCard.PressesKeepCountPositive` | src/components/dashboard/HabitCard.tsx:137-163 | from a count of 1, any presses leave a count between 1 and one plus the number of plus presses, so the disabled state never applies |
| `HabitCard.NotesPayload` | src/components/dashboard/HabitCard.tsx:30 | the trimmed notes or `undefined`: absent iff the notes are all white space, else the trimmed notes |
| `HabitCard.HandleLog` | src/components/dashboard/HabitCard.tsx:28-35 | with a positive count, emits the habit id, count and notes payload and resets the form to count 1, no notes, closed; otherwise emits nothing and changes nothing |
| `HabitCard.LogAfterPresses` | src/components/dashboard/HabitCard.tsx:28-35 | after any presses from a fresh form, logging emits the stepper's count, at least 1, and resets the form |
| `ReminderSettings.AddReminder` | src/components/dashboard/ReminderSettings.tsx:37-53 | nothing changes without a habit or without days; otherwise exactly one enabled reminder with the form's habit, time and days is appended and the form returns to its defaults |
| `ReminderSettings.AddKeepsEarlier` | src/components/dashboard/ReminderSettings.tsx:40-48 | a successful add keeps every earlier reminder at its place and puts the new one last |
| `ReminderSettings.ToggleReminder` | src/components/dashboard/ReminderSettings.tsx:55-61 | the same length, and each reminder changes at most in `enabled`, which flips iff it carries the id |
| `ReminderSettings.ToggleTwice` | src/components/dashboard/ReminderSettings.tsx:55-61 | toggling the same id twice restores the list |
| `ReminderSettings.DeleteReminder` | src/components/dashboard/ReminderSettings.tsx:63-65 | a reminder remains iff it was there and does not carry the id, and every kept reminder remains as often as it occurred |
| `ReminderSettings.DeleteKeepsOrder` | src/components/dashboard/ReminderSettings.tsx:63-65 | the remaining reminders keep their order |
| `ReminderSettings.DeleteUndoesAdd` | src/components/dashboard/ReminderSettings.tsx:37-65 | deleting a reminder just added under a fresh id gives back the earlier list |
| `ReminderSettings.ToggleDay` | src/components/dashboard/ReminderSettings.tsx:67-73 | the day is selected afterwards iff it was not; an absent day is appended; removing a present day keeps every other entry as often as it occurred |
| `ReminderSettings.ToggleDayTwice` | src/components/dashboard/ReminderSettings.tsx:67-73 | toggling a day twice gives back the same set of days, and the same list when the day was absent |
| `Dashboard.FilteredHabits` | src/components/dashboard/Dashboard.tsx:110-112 | every habit under 'All', otherwise a habit is kept iff its category is the selected one, as often as it occurs |
| `Dashboard.FilteredHabitsInOrder` | src/components/dashboard/Dashboard.tsx:112 | the filtered habits keep their relative order |
| `Dashboard.CardLogs` | src/components/dashboard/Dashboard.tsx:262 | every log handed to a card is that habit's, and each of that habit's logs is handed over as often as it occurs |
| `Dashboard.CardsDisjoint` | src/components/dashboard/Dashboard.tsx:262 | cards of habits with different ids share no log |
| `AddHabitModal.DescriptionPayload` | src/components/dashboard/AddHabitModal.tsx:45 | the trimmed description or `null`: null iff the description is all white space, else the non-empty trimmed description |
| `AddHabitModal.Submit` | src/components/dashboard/AddHabitModal.tsx:33-50 | refused with 'Please enter a habit title' iff the title is all white space; otherwise the row has the non-empty trimmed title, the description payload and the other fields as entered |
| `AddHabitModal.SubmitIdempotent` | src/components/dashboard/AddHabitModal.tsx:44-45 | a title with a visible character is accepted, and submitting the accepted row again yields the same row |
| `AddHabitModal.InitialFormRefused` | src/components/dashboard/AddHabitModal.tsx:19-37 | the form as it opens, with its empty title, is refused |
| `AddHabitModal.TargetCountFromInput` | src/components/dashboard/AddHabitModal.tsx:156 | the parsed field, falling back to 1, is never 0: NaN and 0 both become 1, every other parsed value is kept |
| `AddHabitModal.TargetCountRoundTrip` | src/components/dashboard/AddHabitModal.tsx:155-156 | the field reads back any non-zero number it shows |
| `AddHabitModal.ClearedTargetIsOne` | src/components/dashboard/AddHabitModal.tsx:156 | a cleared or blank field gives 1 |

## Left out

- Backend access is not modelled. This covers the Supabase client and every fetch, insert, delete and sign-out handler (src/lib/supabase.ts:6, src/components/dashboard/Dashboard.tsx:24-107, src/components/dashboard/AddHabitModal.tsx:39-60). The query window at Dashboard.tsx:45-46, which fetches only the selected day's logs, is part of this. The logs every component receives are therefore a parameter.
- React machinery is presentation and is not modelled. This covers state hooks, `useEffect`/`useMemo`, JSX, CSS, icons, the recharts configuration (src/components/dashboard/Graph.tsx:81-130), and `handleDelete` with its `confirm()` (src/components/dashboard/HabitCard.tsx:37-41). The component state is passed around as immutable values.
- The clock is not modelled. `new Date()` becomes the `now` parameter.
- Time zones, daylight saving and ISO-string parsing are not modelled. An instant is already a count of local-time milliseconds, so every day is 86 400 000 ms long.
- The date labels are presentation only: `'EEE'` (HabitAnalytics.tsx:36), `'MMM dd'` (Graph.tsx:52) and `'HH:mm'`. A chart point carries the day index instead.
- The unused 'week'/'month' period selector (HabitAnalytics.tsx:14) drives no computation.
- `totalLogsToday` (HabitStats.tsx:20) is the length of the given list and has nothing to state.
- Floating point is not modelled. `Math.round` of a quotient is rounded half up on the exact rational value. A float quotient that lands just beside a `.5` boundary may round the other way in the source.
- Graph.AverageCompletion: the average is an exact `real`, not a float; its row is stated through `Graph.AverageWithinBounds`.
- HabitCard.ProgressWidth: the width is an exact `real`. It requires a non-zero `target_count`, so the `Infinity` (positive total) and `NaN` (zero total) widths of a zero target are not modelled. A negative target is modelled: it gives a finite width of at most 0 on a card shown as completed. JavaScript's `-0` for a zero total is the real `0`.
- `target_count ≥ 1` is a precondition of the streak, completion-rate and statistics members: of every habit (`Types.ValidHabits`) for the tile's streaks, of the looked-up habit only for `HabitAnalytics.GetHabitStats`. The source never enforces it: only the input's `min="1"` attribute does (AddHabitModal.tsx:154). A negative `parseInt` result passes the `|| 1` fallback. `Completion.TargetBelowOneAlwaysComplete` shows that the streak walk does not end without this precondition.
- AddHabitModal.TargetCountFromInput: `parseInt` is read with unbounded integers, so results beyond 2^53 are not rounded to the nearest double as JavaScript would round them.
- HabitCard.Increment: its contract says only that the count rises. That it rises by exactly one is what `HabitCard.DecrementUndoesIncrement` pins down, for every count the stepper can show.
- Reminder ids are a `freshId` parameter instead of `Date.now().toString()` (ReminderSettings.tsx:41).
- Graph.BestDay: the best-day reduction requires a non-empty series. JavaScript's `reduce` without an initial value throws on an empty array, and the series always has seven points.
- The frequency options, the colour swatches' rendering and the category picker's options are only copied as constants.
- Files without dashboard logic are not part of this model: scripts/generate-icons.js, src/app/page.tsx and next.config.ts.

=== FILE: add_habit_modal.dfy ===
/**
 The new-habit form: its defaults, the title check and the normalisation
 of the submitted fields, and the target-count input's fallback.
 */
module AddHabitModal {
  import opened Types
  import opened Text

  /** The colour swatches, in display order. */
  const ColorOptions: seq<string> := [
    "#3B82F6", "#EF4444", "#10B981", "#F59E0B", "#8B5CF6",
    "#EC4899", "#06B6D4", "#84CC16", "#F97316", "#6366F1"
  ]

  datatype HabitForm = HabitForm(
    title: string,
    description: string,
    frequency: Frequency,
    targetCount: int,
    color: string,
    category: string)

  /** The form as it opens: daily, a target of 1, the first colour and the
      first category. */
  const InitialHabitForm: HabitForm :=
    HabitForm("", "", Daily, 1, ColorOptions[0], HabitCategories[0])

  /** The row inserted into `habits`. */
  datatype NewHabit = NewHabit(
    userId: string,
    title: string,
    description: Option<string>,
    frequency: Frequency,
    targetCount: int,
    color: string,
    category: string)

  const TitleRequired: string := "Please enter a habit title"

  /** `description.trim() || null`. */
  function DescriptionPayload(description: string): (r: Option<string>)
    ensures r.None? <==> forall i :: 0 <= i < |description| ==> IsWhitespace(description[i])
    ensures r.Some? ==> r.value == Trim(description) && r.value != ""
  {
    BlankIffAllWhitespace(description);
    var t := Trim(description);
    if t == "" then None else Some(t)
  }

  /** `handleSubmit`, up to the insert: a blank title is refused with the
      message; otherwise the row carries the trimmed title, the trimmed
      description or none, and the other fields as entered. */
  function Submit(form: HabitForm, userId: string): (r: Result<NewHabit, string>)
    ensures r.Failure? <==> forall i :: 0 <= i < |form.title| ==> IsWhitespace(form.title[i])
    ensures r.Failure? ==> r.error == TitleRequired
    ensures r.Success? ==>
              && r.value.title == Trim(form.title) && r.value.title != ""
              && r.value.description == DescriptionPayload(form.description)
              && r.value == NewHabit(userId, r.value.title, r.value.description,
                                     form.frequency, form.targetCount, form.color, form.category)
  {
    BlankIffAllWhitespace(form.title);
    if IsBlank(form.title) then Failure(TitleRequired)
    else Success(NewHabit(userId, Trim(form.title), DescriptionPayload(form.description),
                          form.frequency, form.targetCount, form.color, form.category))
  }

  /** The form in the state a submitted row would show again. */
  function Refill(row: NewHabit): HabitForm {
    HabitForm(row.title, match row.description case None => "" case Some(d) => d,
              row.frequency, row.targetCount, row.color, row.category)
  }

  /** A title with a visible character is accepted, and normalising is
      idempotent: submitting a form refilled from the row yields the same row. */
  lemma SubmitIdempotent(form: HabitForm, userId: string)
    requires exists i :: 0 <= i < |form.title| && !IsWhitespace(form.title[i])
    ensures Submit(form, userId).Success?
    ensures Submit(Refill(Submit(form, userId).value), userId) == Submit(form, userId)
  {
    var row := Submit(form, userId).value;
    TrimIdempotent(form.title);
    TrimIdempotent(form.description);
    BlankIffAllWhitespace(row.title);
    if row.description.Some? {
      BlankIffAllWhitespace(row.description.value);
    }
  }

  /** The untouched form is refused: its title is empty. */
  lemma InitialFormRefused(userId: string)
    ensures Submit(InitialHabitForm, userId) == Failure(TitleRequired)
  {
  }

  /** The target-count field: `parseInt(value) || 1`, so NaN and 0 fall
      back to 1 and every other parsed value is kept. */
  function TargetCountFromInput(value: string): (r: int)
    ensures r != 0
    ensures ParseInt(value).None? || ParseInt(value) == Some(0) ==> r == 1
    ensures ParseInt(value).Some? && ParseInt(value).value != 0 ==> r == ParseInt(value).value
  {
    match ParseInt(value)
    case None => 1
    case Some(n) => if n == 0 then 1 else n
  }

  /** The field reads back any non-zero number it shows. */
  lemma TargetCountRoundTrip(n: int)
    requires n != 0
    ensures TargetCountFromInput(ShowInt(n)) == n
  {
    ParseShowRoundTrip(n);
  }

  /** A cleared field falls back to 1. */
  lemma ClearedTargetIsOne(value: string)
    requires IsBlank(value)
    ensures TargetCountFromInput(value) == 1
  {
    ParseBlankIsNaN(value);
  }
}

=== FILE: completion.dfy ===
/**
 The one completion rule every dashboard component repeats: a habit is
 complete on a day iff the counts of its logs on that day add up to at
 least its target; the backward streak walk built on it; and the per-day
 aggregate (completed habits out of all habits) the charts plot.
 */
module Completion {
  import opened Types
  import opened Seqs
  import opened Days
  import opened Rounding

  /** `logs.reduce((sum, log) => sum + log.count, 0)`: 0 for no logs, the
      count of a single log. */
  function SumCounts(logs: seq<HabitLog>): (r: int)
    ensures |logs| == 0 ==> r == 0
    ensures |logs| == 1 ==> r == logs[0].count
  {
    if |logs| == 0 then 0 else logs[0].count + SumCounts(logs[1..])
  }

  lemma {:induction false} SumCountsConcat(a: seq<HabitLog>, b: seq<HabitLog>)
    ensures SumCounts(a + b) == SumCounts(a) + SumCounts(b)
  {
    if |a| > 0 {
      assert (a + b)[1..] == a[1..] + b;
      SumCountsConcat(a[1..], b);
    } else {
      assert a + b == b;
    }
  }

  /** The sum does not depend on the order of the logs. */
  lemma {:induction false} SumCountsPermutation(a: seq<HabitLog>, b: seq<HabitLog>)
    requires multiset(a) == multiset(b)
    ensures SumCounts(a) == SumCounts(b)
    decreases |a|
  {
    if |a| > 0 {
      var x := a[0];
      assert x in multiset(b);
      var k :| 0 <= k < |b| && b[k] == x;
      var rest := b[..k] + b[k + 1..];
      assert b == b[..k] + [x] + b[k + 1..];
      assert a == [x] + a[1..];
      assert multiset(a) == multiset([x]) + multiset(a[1..]);
      assert multiset(b) == multiset(b[..k]) + multiset([x]) + multiset(b[k + 1..]);
      assert multiset(rest) == multiset(b[..k]) + multiset(b[k + 1..]);
      assert multiset(a[1..]) == multiset(a) - multiset{x};
      assert multiset(rest) == multiset(b) - multiset{x};
      SumCountsPermutation(a[1..], rest);
      SumCountsConcat(b[..k] + [x], b[k + 1..]);
      SumCountsConcat(b[..k], [x]);
      SumCountsConcat(b[..k], b[k + 1..]);
    } else {
      assert |b| == |multiset(b)| == 0;
    }
  }

  // Predicates the filters use, named so that every use is the same value.

  function ForHabit(id: string): HabitLog -> bool {
    (l: HabitLog) => l.habitId == id
  }

  function OnDay(d: int): HabitLog -> bool {
    (l: HabitLog) => DayOf(l.completedAt) == d
  }

  /** `isSameDay(new Date(log.completed_at), instant)`. */
  function SameDayAs(instant: int): HabitLog -> bool {
    (l: HabitLog) => SameDay(l.completedAt, instant)
  }

  function UpToDay(d: int): HabitLog -> bool {
    (l: HabitLog) => DayOf(l.completedAt) <= d
  }

  /** `logs.filter(log => log.habit_id === id)`. */
  function LogsOf(logs: seq<HabitLog>, id: string): seq<HabitLog> {
    Filter(logs, ForHabit(id))
  }

  /** The logs completed on local day `d`. */
  function LogsOnDay(logs: seq<HabitLog>, d: int): seq<HabitLog> {
    Filter(logs, OnDay(d))
  }

  /** The summed count of habit `id`'s logs on day `d`. */
  function DayTotal(logs: seq<HabitLog>, id: string, d: int): int {
    SumCounts(LogsOnDay(LogsOf(logs, id), d))
  }

  /** THE completion rule. */
  predicate CompletedOn(h: Habit, logs: seq<HabitLog>, d: int) {
    DayTotal(logs, h.id, d) >= h.targetCount
  }

  /** Only logs of the habit on the day contribute to its day total. */
  lemma DayTotalAppend(logs: seq<HabitLog>, l: HabitLog, id: string, d: int)
    ensures DayTotal(logs + [l], id, d)
            == DayTotal(logs, id, d) + (if l.habitId == id && DayOf(l.completedAt) == d then l.count else 0)
  {
    FilterConcat(logs, [l], ForHabit(id));
    FilterConcat(LogsOf(logs, id), LogsOf([l], id), OnDay(d));
    SumCountsConcat(LogsOnDay(LogsOf(logs, id), d), LogsOnDay(LogsOf([l], id), d));
  }

  /** Filtering by `isSameDay` with an instant is filtering by its day. */
  lemma SameDayAsIsOnDay(logs: seq<HabitLog>, instant: int)
    ensures Filter(logs, SameDayAs(instant)) == LogsOnDay(logs, DayOf(instant))
  {
    FilterExt(logs, SameDayAs(instant), OnDay(DayOf(instant)));
  }

  /** The day total does not depend on the order of the logs. */
  lemma DayTotalPermutation(logs: seq<HabitLog>, others: seq<HabitLog>, id: string, d: int)
    requires multiset(logs) == multiset(others)
    ensures DayTotal(logs, id, d) == DayTotal(others, id, d)
  {
    FilterMultiset(logs, ForHabit(id));
    FilterMultiset(others, ForHabit(id));
    assert multiset(LogsOf(logs, id)) == multiset(LogsOf(others, id));
    FilterMultiset(LogsOf(logs, id), OnDay(d));
    FilterMultiset(LogsOf(others, id), OnDay(d));
    assert multiset(LogsOnDay(LogsOf(logs, id), d)) == multiset(LogsOnDay(LogsOf(others, id), d));
    SumCountsPermutation(LogsOnDay(LogsOf(logs, id), d), LogsOnDay(LogsOf(others, id), d));
  }

  /** A non-zero day total needs a log of that habit on that day. */
  lemma NonzeroTotalHasLog(logs: seq<HabitLog>, id: string, d: int)
    requires DayTotal(logs, id, d) != 0
    ensures exists l :: l in logs && l.habitId == id && DayOf(l.completedAt) == d
    ensures |LogsOnDay(LogsOf(logs, id), d)| > 0
  {
    var r := LogsOnDay(LogsOf(logs, id), d);
    assert |r| > 0;
    assert r[0] in r;
    FilterMembers(logs, ForHabit(id));
    FilterMembers(LogsOf(logs, id), OnDay(d));
  }

  /** With a target of at least one, a day without logs is never complete. */
  lemma NoLogsNotCompleted(h: Habit, logs: seq<HabitLog>, d: int)
    requires h.targetCount >= 1
    requires forall l :: l in logs && l.habitId == h.id ==> DayOf(l.completedAt) != d
    ensures !CompletedOn(h, logs, d)
  {
    if CompletedOn(h, logs, d) {
      NonzeroTotalHasLog(logs, h.id, d);
    }
  }

  /** Logs with no negative count sum to at least 0. */
  lemma {:induction false} SumCountsNonNegative(logs: seq<HabitLog>)
    requires forall l :: l in logs ==> l.count >= 0
    ensures SumCounts(logs) >= 0
  {
    if |logs| > 0 {
      assert logs[0] in logs;
      assert forall l :: l in logs[1..] ==> l in logs;
      SumCountsNonNegative(logs[1..]);
    }
  }

  /** Without a positive target every day is complete, whatever was logged:
      the backward walk would then never meet an incomplete day, which is
      why the streak needs a target of at least one. */
  lemma TargetBelowOneAlwaysComplete(h: Habit, logs: seq<HabitLog>, d: int)
    requires h.targetCount <= 0
    requires forall l :: l in logs ==> l.count >= 0
    ensures CompletedOn(h, logs, d)
  {
    var own := LogsOf(logs, h.id);
    FilterMembers(logs, ForHabit(h.id));
    FilterMembers(own, OnDay(d));
    SumCountsNonNegative(LogsOnDay(own, d));
  }

  /** Days left between `day` and the earliest log, inclusive. */
  function DaysSinceEarliest(logs: seq<HabitLog>, day: int): int {
    if |logs| == 0 then 0 else day - EarliestDay(logs) + 1
  }

  /** A complete day lies on or after the earliest log. */
  lemma CompleteDayHasLog(h: Habit, logs: seq<HabitLog>, day: int)
    requires h.targetCount >= 1 && CompletedOn(h, logs, day)
    ensures |logs| > 0 && EarliestDay(logs) <= day
    ensures 0 <= DaysSinceEarliest(logs, day - 1) < DaysSinceEarliest(logs, day)
  {
    NonzeroTotalHasLog(logs, h.id, day);
  }

  /** The earliest day any log was completed on. */
  function EarliestDay(logs: seq<HabitLog>): (d: int)
    requires |logs| > 0
    ensures forall l :: l in logs ==> d <= DayOf(l.completedAt)
  {
    if |logs| == 1 then DayOf(logs[0].completedAt)
    else
      var rest := EarliestDay(logs[1..]);
      assert forall l :: l in logs ==> l == logs[0] || l in logs[1..];
      if DayOf(logs[0].completedAt) < rest then DayOf(logs[0].completedAt) else rest
  }

  /** The number of consecutive complete days ending at `day`. The walk
      stops at the latest incomplete day, at the latest the day before the
      earliest log, since a complete day needs a log. */
  function Streak(h: Habit, logs: seq<HabitLog>, day: int): nat
    requires h.targetCount >= 1
    decreases DaysSinceEarliest(logs, day)
  {
    if CompletedOn(h, logs, day) then
      CompleteDayHasLog(h, logs, day);
      1 + Streak(h, logs, day - 1)
    else 0
  }

  /** The streak counts complete days only, and the day before the run is
      incomplete; in particular it is 0 when `day` itself is incomplete. */
  lemma {:induction false} StreakIsRun(h: Habit, logs: seq<HabitLog>, day: int)
    requires h.targetCount >= 1
    ensures forall d :: day - Streak(h, logs, day) < d <= day ==> CompletedOn(h, logs, d)
    ensures !CompletedOn(h, logs, day - Streak(h, logs, day))
    decreases DaysSinceEarliest(logs, day)
  {
    if CompletedOn(h, logs, day) {
      CompleteDayHasLog(h, logs, day);
      StreakIsRun(h, logs, day - 1);
    }
  }

  /** The streak is THE run length: any `n` with a complete run of `n` days
      ending at `day` and an incomplete day before it equals the streak. */
  lemma {:induction false} StreakIsRunLength(h: Habit, logs: seq<HabitLog>, day: int, n: nat)
    requires h.targetCount >= 1
    requires forall d :: day - n < d <= day ==> CompletedOn(h, logs, d)
    requires !CompletedOn(h, logs, day - n)
    ensures Streak(h, logs, day) == n
    decreases n
  {
    if n > 0 {
      assert CompletedOn(h, logs, day);
      StreakIsRunLength(h, logs, day - 1, n - 1);
    }
  }

  /** One step of the backward walk: a complete day extends the streak of
      the day before by one, an incomplete day has none. */
  lemma StreakStep(h: Habit, logs: seq<HabitLog>, day: int)
    requires h.targetCount >= 1
    ensures CompletedOn(h, logs, day) ==> Streak(h, logs, day) == 1 + Streak(h, logs, day - 1)
    ensures !CompletedOn(h, logs, day) ==> Streak(h, logs, day) == 0
  {
  }

  lemma {:induction false} StreakAtMostLogsUpTo(h: Habit, logs: seq<HabitLog>, day: int)
    requires h.targetCount >= 1
    ensures Streak(h, logs, day) <= |Filter(LogsOf(logs, h.id), UpToDay(day))|
    decreases DaysSinceEarliest(logs, day)
  {
    if CompletedOn(h, logs, day) {
      CompleteDayHasLog(h, logs, day);
      NonzeroTotalHasLog(logs, h.id, day);
      StreakAtMostLogsUpTo(h, logs, day - 1);
      FilterSplitCount(LogsOf(logs, h.id), UpToDay(day), UpToDay(day - 1), OnDay(day));
    }
  }

  /** A streak never exceeds the number of the habit's logs. */
  lemma StreakAtMostLogs(h: Habit, logs: seq<HabitLog>, day: int)
    requires h.targetCount >= 1
    ensures Streak(h, logs, day) <= |LogsOf(logs, h.id)|
  {
    StreakAtMostLogsUpTo(h, logs, day);
  }

  // ------------------------------------------------------------ per day

  function CompletedPred(logs: seq<HabitLog>, d: int): Habit -> bool {
    (h: Habit) => CompletedOn(h, logs, d)
  }

  /** How many habits are complete on day `d`. */
  function CompletedCount(habits: seq<Habit>, logs: seq<HabitLog>, d: int): (n: nat)
    ensures n <= |habits|
  {
    |Filter(habits, CompletedPred(logs, d))|
  }

  /** Adding a habit adds one exactly when that habit is complete. */
  lemma CompletedCountAppend(habits: seq<Habit>, h: Habit, logs: seq<HabitLog>, d: int)
    ensures CompletedCount(habits + [h], logs, d)
            == CompletedCount(habits, logs, d) + (if CompletedOn(h, logs, d) then 1 else 0)
  {
    FilterConcat(habits, [h], CompletedPred(logs, d));
  }

  /** The count does not depend on the order of the habits. */
  lemma CompletedCountPermutation(habits: seq<Habit>, others: seq<Habit>, logs: seq<HabitLog>, d: int)
    requires multiset(habits) == multiset(others)
    ensures CompletedCount(habits, logs, d) == CompletedCount(others, logs, d)
  {
    var p := CompletedPred(logs, d);
    FilterMultiset(habits, p);
    FilterMultiset(others, p);
    assert multiset(Filter(habits, p)) == multiset(Filter(others, p));
    assert |Filter(habits, p)| == |multiset(Filter(habits, p))|;
    assert |Filter(others, p)| == |multiset(Filter(others, p))|;
  }

  /** One chart point: the day, the habits complete on it, all habits, and
      the rounded percentage. */
  datatype DayStat = DayStat(day: int, completed: nat, total: nat, percentage: int)

  function DayStatOf(habits: seq<Habit>, logs: seq<HabitLog>, d: int): (r: DayStat)
    ensures r.day == d && r.total == |habits| && r.completed <= r.total
    ensures 0 <= r.percentage <= 100
    ensures r.total == 0 ==> r.percentage == 0
    ensures r.completed == r.total > 0 ==> r.percentage == 100
    ensures r.completed == CompletedCount(habits, logs, d)
    ensures r.total > 0 ==>
              2 * r.total * r.percentage - r.total <= 200 * r.completed < 2 * r.total * r.percentage + r.total
  {
    var c := CompletedCount(habits, logs, d);
    DayStat(d, c, |habits|, Percentage(c, |habits|))
  }
}

=== FILE: dashboard.dfy ===
/**
 The dashboard's two list operations that feed the cards: the category
 filter over the habits and the split of the day's logs among the cards.
 */
module Dashboard {
  import opened Types
  import opened Seqs
  import opened Completion

  /** The category picker's catch-all entry. */
  const AllCategories: string := "All"

  function InCategory(category: string): Habit -> bool {
    (h: Habit) => h.category == category
  }

  /** `filteredHabits`: every habit under "All", otherwise exactly the
      habits of the selected category, in their original order. */
  function FilteredHabits(habits: seq<Habit>, selectedCategory: string): (r: seq<Habit>)
    ensures selectedCategory == AllCategories ==> r == habits
    ensures selectedCategory != AllCategories ==>
              forall h :: h in r <==> h in habits && h.category == selectedCategory
    ensures selectedCategory != AllCategories ==>
              forall h :: multiset(r)[h] == if h.category == selectedCategory then multiset(habits)[h] else 0
    ensures |r| <= |habits|
  {
    FilterMembers(habits, InCategory(selectedCategory));
    FilterMultiset(habits, InCategory(selectedCategory));
    if selectedCategory == AllCategories then habits else Filter(habits, InCategory(selectedCategory))
  }

  /** The filter keeps the habits' relative order. */
  lemma FilteredHabitsInOrder(habits: seq<Habit>, selectedCategory: string)
    ensures IsSubsequence(FilteredHabits(habits, selectedCategory), habits)
  {
    if selectedCategory == AllCategories {
      FilterAll(habits, (h: Habit) => true);
      FilterIsSubsequence(habits, (h: Habit) => true);
    } else {
      FilterIsSubsequence(habits, InCategory(selectedCategory));
    }
  }

  /** The logs handed to a habit's card: that habit's logs, each exactly as
      often as it occurs in the day's logs, none of another habit. */
  function CardLogs(habitLogs: seq<HabitLog>, habit: Habit): (r: seq<HabitLog>)
    ensures forall l :: l in r ==> l.habitId == habit.id
    ensures forall l :: multiset(r)[l] == if l.habitId == habit.id then multiset(habitLogs)[l] else 0
  {
    FilterMultiset(habitLogs, ForHabit(habit.id));
    FilterMembers(habitLogs, ForHabit(habit.id));
    LogsOf(habitLogs, habit.id)
  }

  /** Cards of habits with different ids share no log. */
  lemma CardsDisjoint(habitLogs: seq<HabitLog>, a: Habit, b: Habit)
    requires a.id != b.id
    ensures multiset(CardLogs(habitLogs, a)) !! multiset(CardLogs(habitLogs, b))
  {
    var ma, mb := multiset(CardLogs(habitLogs, a)), multiset(CardLogs(habitLogs, b));
    forall l
      ensures !(l in ma && l in mb)
    {
    }
  }
}

=== FILE: days.dfy ===
/**
 Calendar days as integers. An instant is a number of LOCAL-time
 milliseconds; its day index counts days since 1970-01-01 (a Thursday).
 The date helpers the dashboard uses (`isSameDay`, `startOfDay`,
 `endOfDay`, `subDays`, `startOfWeek`, `endOfWeek`, `eachDayOfInterval`,
 and equality of `'yyyy-MM-dd'` renderings) all reduce to day indices.
 */
module Days {

  const MsPerDay: int := 86_400_000

  /** First millisecond of day `d` (`startOfDay`). */
  function StartOfDay(d: int): int {
    d * MsPerDay
  }

  /** Last millisecond of day `d` (`endOfDay`, 23:59:59.999). */
  function EndOfDay(d: int): int {
    d * MsPerDay + MsPerDay - 1
  }

  /** The day containing instant `t`. */
  function DayOf(t: int): (d: int)
    ensures StartOfDay(d) <= t <= EndOfDay(d)
  {
    t / MsPerDay
  }

  /** An instant lies within a day's inclusive bounds iff it belongs to that day. */
  lemma WithinDayIff(t: int, d: int)
    ensures StartOfDay(d) <= t <= EndOfDay(d) <==> DayOf(t) == d
  {
  }

  /** An instant lies between the start of day `a` and the end of day `b`
      iff its day is one of `a` through `b`. */
  lemma WithinDaysIff(t: int, a: int, b: int)
    ensures StartOfDay(a) <= t <= EndOfDay(b) <==> a <= DayOf(t) <= b
  {
  }

  lemma DayOfStartOfDay(d: int)
    ensures DayOf(StartOfDay(d)) == d
  {
    WithinDayIff(StartOfDay(d), d);
  }

  /** `isSameDay(a, b)`; equal `'yyyy-MM-dd'` renderings mean the same. */
  predicate SameDay(a: int, b: int) {
    DayOf(a) == DayOf(b)
  }

  /** `subDays(t, n)`: the same wall-clock time `n` days earlier. */
  function SubDays(t: int, n: int): (r: int)
    ensures DayOf(r) == DayOf(t) - n
    ensures r - StartOfDay(DayOf(r)) == t - StartOfDay(DayOf(t))
  {
    var r := t - n * MsPerDay;
    WithinDayIff(r, DayOf(t) - n);
    r
  }

  /** `getDay()`: 0 = Sunday, 1 = Monday, ..., 6 = Saturday. */
  function Weekday(d: int): (w: int)
    ensures 0 <= w < 7
  {
    (d + 4) % 7
  }

  /** The `getDay()` numbering: 1970-01-01 is a Thursday, and each day is
      the weekday after the one before it. */
  lemma WeekdayNumbering(d: int)
    ensures Weekday(0) == 4
    ensures Weekday(d + 1) == (Weekday(d) + 1) % 7
  {
  }

  /** `startOfWeek(day, { weekStartsOn: 1 })` as a day index. */
  function WeekStart(d: int): (m: int)
    ensures Weekday(m) == 1
    ensures m <= d <= m + 6
  {
    var day := Weekday(d);
    var diff := (if day < 1 then 7 else 0) + day - 1;
    d - diff
  }

  /** `endOfWeek(day, { weekStartsOn: 1 })` as a day index: the Sunday that
      closes the week `WeekStart(d)` opens. */
  function WeekEnd(d: int): (e: int)
    ensures Weekday(e) == 0
    ensures e == WeekStart(d) + 6
  {
    var day := Weekday(d);
    var diff := (if day < 1 then -7 else 0) + 6 - (day - 1);
    d + diff
  }

  /** `eachDayOfInterval({ start, end })`: every day from `first` to `last`. */
  function EachDay(first: int, last: int): (r: seq<int>)
    requires first <= last
    ensures |r| == last - first + 1
    ensures forall i :: 0 <= i < |r| ==> r[i] == first + i
  {
    seq(last - first + 1, i => first + i)
  }
}

=== FILE: graph.dfy ===
/**
 The completion-trend chart: one point per day for the last seven days,
 oldest first, with the average completion and the best day shown under
 the chart.
 */
module Graph {
  import opened Types
  import opened Seqs
  import opened Days
  import opened Rounding
  import opened Completion

  /** The chart's day filter: instants between `dayStart` and `dayEnd`,
      both inclusive. */
  function Between(dayStart: int, dayEnd: int): HabitLog -> bool {
    (l: HabitLog) => dayStart <= l.completedAt <= dayEnd
  }

  /** The day's logs are exactly those whose instant lies within the bounds
      of the day, that is, the logs of that day. */
  lemma BetweenIsOnDay(habitLogs: seq<HabitLog>, d: int)
    ensures Filter(habitLogs, Between(StartOfDay(d), EndOfDay(d))) == LogsOnDay(habitLogs, d)
  {
    forall l: HabitLog
      ensures Between(StartOfDay(d), EndOfDay(d))(l) == OnDay(d)(l)
    {
      WithinDayIff(l.completedAt, d);
    }
    FilterExt(habitLogs, Between(StartOfDay(d), EndOfDay(d)), OnDay(d));
  }

  /** The habit's summed count among the day's logs is its day total. */
  lemma ChartCountIsDayTotal(habitLogs: seq<HabitLog>, id: string, d: int)
    ensures SumCounts(Filter(Filter(habitLogs, Between(StartOfDay(d), EndOfDay(d))), ForHabit(id)))
            == DayTotal(habitLogs, id, d)
  {
    BetweenIsOnDay(habitLogs, d);
    FilterCommute(habitLogs, OnDay(d), ForHabit(id));
  }

  /** One step of the counter: the next habit adds one exactly when its
      summed count among the day's logs reaches its target. */
  lemma CountStep(habits: seq<Habit>, habitLogs: seq<HabitLog>, d: int, j: int, totalCount: int)
    requires 0 <= j < |habits|
    requires totalCount == SumCounts(Filter(Filter(habitLogs, Between(StartOfDay(d), EndOfDay(d))), ForHabit(habits[j].id)))
    ensures CompletedCount(habits[..j + 1], habitLogs, d)
            == CompletedCount(habits[..j], habitLogs, d) + (if totalCount >= habits[j].targetCount then 1 else 0)
  {
    ChartCountIsDayTotal(habitLogs, habits[j].id, d);
    CompletedCountAppend(habits[..j], habits[j], habitLogs, d);
    assert habits[..j + 1] == habits[..j] + [habits[j]];
  }

  /** The `habits.forEach` counter for one day: how many habits reach their
      target among `dayLogs`. */
  method CountCompleted(habits: seq<Habit>, habitLogs: seq<HabitLog>, d: int) returns (completedHabits: nat)
    ensures completedHabits == CompletedCount(habits, habitLogs, d)
  {
    var dayLogs := Filter(habitLogs, Between(StartOfDay(d), EndOfDay(d)));
    completedHabits := 0;
    var j := 0;
    while j < |habits|
      invariant 0 <= j <= |habits|
      invariant completedHabits == CompletedCount(habits[..j], habitLogs, d)
    {
      var habit := habits[j];
      var habitLogsForDay := Filter(dayLogs, ForHabit(habit.id));
      var totalCount := SumCounts(habitLogsForDay);
      CountStep(habits, habitLogs, d, j, totalCount);
      if totalCount >= habit.targetCount {
        completedHabits := completedHabits + 1;
      }
      j := j + 1;
    }
    assert habits[..|habits|] == habits;
  }

  /** The `useMemo` series: seven points for the days `today - 6` through
      `today`, oldest first, each the completion aggregate of its day. */
  method Last7Days(habits: seq<Habit>, habitLogs: seq<HabitLog>, now: int) returns (data: seq<DayStat>)
    ensures |data| == 7
    ensures forall k :: 0 <= k < 7 ==> data[k] == DayStatOf(habits, habitLogs, DayOf(now) - 6 + k)
  {
    data := [];
    var i := 6;
    while i >= 0
      invariant -1 <= i <= 6
      invariant |data| == 6 - i
      invariant forall k :: 0 <= k < |data| ==> data[k] == DayStatOf(habits, habitLogs, DayOf(now) - 6 + k)
    {
      var date := SubDays(now, i);
      var completedHabits := CountCompleted(habits, habitLogs, DayOf(date));
      var totalHabits := |habits|;
      var percentage := Percentage(completedHabits, totalHabits);
      data := data + [DayStat(DayOf(date), completedHabits, totalHabits, percentage)];
      i := i - 1;
    }
  }

  // ------------------------------------------------------ under the chart

  function SumPercentages(data: seq<DayStat>): int {
    if |data| == 0 then 0 else SumPercentages(data[..|data| - 1]) + data[|data| - 1].percentage
  }

  /** `averageCompletion`: the mean of the points' percentages. */
  function AverageCompletion(data: seq<DayStat>): real
    requires |data| > 0
  {
    SumPercentages(data) as real / |data| as real
  }

  /** Percentages all within `lo..hi` sum to between `lo` and `hi` per point. */
  lemma {:induction false} SumPercentagesBounds(data: seq<DayStat>, lo: int, hi: int)
    requires forall k :: 0 <= k < |data| ==> lo <= data[k].percentage <= hi
    ensures lo * |data| <= SumPercentages(data) <= hi * |data|
  {
    if |data| > 0 {
      SumPercentagesBounds(data[..|data| - 1], lo, hi);
    }
  }

  /** The average lies between the lowest and the highest point. */
  lemma AverageWithinBounds(data: seq<DayStat>, lo: int, hi: int)
    requires |data| > 0
    requires forall k :: 0 <= k < |data| ==> lo <= data[k].percentage <= hi
    ensures lo as real <= AverageCompletion(data) <= hi as real
  {
    SumPercentagesBounds(data, lo, hi);
    var n := |data| as real;
    var s := SumPercentages(data) as real;
    assert lo as real * n <= s <= hi as real * n;
    assert (s / n) * n == s;
  }

  /** The chart's average, as every chart point, lies within 0..100. */
  lemma ChartAverageInRange(habits: seq<Habit>, habitLogs: seq<HabitLog>, now: int, data: seq<DayStat>)
    requires |data| == 7
    requires forall k :: 0 <= k < 7 ==> data[k] == DayStatOf(habits, habitLogs, DayOf(now) - 6 + k)
    ensures 0.0 <= AverageCompletion(data) <= 100.0
  {
    AverageWithinBounds(data, 0, 100);
  }

  /** `Math.round(averageCompletion)`, as displayed. */
  function DisplayedAverage(data: seq<DayStat>): (r: int)
    requires |data| > 0
    ensures 2 * |data| * r - |data| <= 2 * SumPercentages(data) < 2 * |data| * r + |data|
  {
    RoundDiv(SumPercentages(data), |data|)
  }

  /** The displayed average lies between the lowest and the highest point. */
  lemma DisplayedAverageWithinBounds(data: seq<DayStat>, lo: int, hi: int)
    requires |data| > 0
    requires forall k :: 0 <= k < |data| ==> lo <= data[k].percentage <= hi
    ensures lo <= DisplayedAverage(data) <= hi
  {
    SumPercentagesBounds(data, lo, hi);
    RoundDivExact(lo, |data|);
    RoundDivExact(hi, |data|);
    RoundDivMonotone(lo * |data|, SumPercentages(data), |data|);
    RoundDivMonotone(SumPercentages(data), hi * |data|, |data|);
  }

  /** `data.reduce((max, day) => day.percentage > max.percentage ? day : max)`:
      the earliest point with the highest percentage. */
  function BestDay(data: seq<DayStat>): (r: DayStat)
    requires |data| > 0
    ensures r in data
    ensures forall k :: 0 <= k < |data| ==> data[k].percentage <= r.percentage
    ensures exists k :: 0 <= k < |data| && data[k] == r
                        && forall j :: 0 <= j < k ==> data[j].percentage < r.percentage
  {
    if |data| == 1 then data[0]
    else
      var best := BestDay(data[..|data| - 1]);
      var day := data[|data| - 1];
      assert forall k :: 0 <= k < |data| - 1 ==> data[k] == data[..|data| - 1][k];
      if day.percentage > best.percentage then day else best
  }
}

=== FILE: habit_analytics.dfy ===
/**
 The analytics panel: the Monday-to-Sunday chart of the current week and
 the per-habit summary (log totals, average count per log, current streak
 and completion rate).
 */
module HabitAnalytics {
  import opened Types
  import opened Seqs
  import opened Days
  import opened Rounding
  import opened Completion

  // ------------------------------------------------------------ weekly chart

  /** The week's days as the instants starting them: `eachDayOfInterval`
      from `startOfWeek(now)` to `endOfWeek(now)`, weeks starting on Monday. */
  function WeekDays(now: int): (r: seq<int>)
    ensures |r| == 7
    ensures forall i :: 0 <= i < 7 ==> DayOf(r[i]) == WeekStart(DayOf(now)) + i
    ensures Weekday(DayOf(r[0])) == 1 && DayOf(r[0]) <= DayOf(now) <= DayOf(r[6])
  {
    var days := EachDay(WeekStart(DayOf(now)), WeekEnd(DayOf(now)));
    var r := seq(|days|, i requires 0 <= i < |days| => StartOfDay(days[i]));
    forall i | 0 <= i < 7
      ensures DayOf(r[i]) == WeekStart(DayOf(now)) + i
    {
      DayOfStartOfDay(days[i]);
    }
    r
  }

  /** The `completedHabits` filter of the chart: the habit's logs among the
      day's logs reach its target. */
  function ReachesTargetIn(dayLogs: seq<HabitLog>): Habit -> bool {
    (h: Habit) => SumCounts(Filter(dayLogs, ForHabit(h.id))) >= h.targetCount
  }

  /** The chart's test agrees with the completion rule on every habit. */
  lemma ChartTestIsCompletionRule(logs: seq<HabitLog>, dayStart: int, h: Habit)
    ensures ReachesTargetIn(Filter(logs, SameDayAs(dayStart)))(h)
            == CompletedOn(h, logs, DayOf(dayStart))
  {
    FilterCommute(logs, SameDayAs(dayStart), ForHabit(h.id));
    SameDayAsIsOnDay(LogsOf(logs, h.id), dayStart);
  }

  /** One chart entry, computed the way the chart does: the day's logs
      first, then each habit's logs among them. */
  function WeeklyEntry(habits: seq<Habit>, habitLogs: seq<HabitLog>, dayStart: int): (r: DayStat)
    ensures r == DayStatOf(habits, habitLogs, DayOf(dayStart))
  {
    var dayLogs := Filter(habitLogs, SameDayAs(dayStart));
    forall h: Habit
      ensures ReachesTargetIn(dayLogs)(h) == CompletedPred(habitLogs, DayOf(dayStart))(h)
    {
      ChartTestIsCompletionRule(habitLogs, dayStart, h);
    }
    FilterExt(habits, ReachesTargetIn(dayLogs), CompletedPred(habitLogs, DayOf(dayStart)));
    var completed := |Filter(habits, ReachesTargetIn(dayLogs))|;
    DayStat(DayOf(dayStart), completed, |habits|, Percentage(completed, |habits|))
  }

  /** `getWeeklyData()`: seven entries, Monday first, for the week holding
      `now`, each the completion aggregate of its day. */
  function WeeklyData(habits: seq<Habit>, habitLogs: seq<HabitLog>, now: int): (r: seq<DayStat>)
    ensures |r| == 7
    ensures forall i :: 0 <= i < 7 ==> r[i] == DayStatOf(habits, habitLogs, WeekStart(DayOf(now)) + i)
    ensures Weekday(r[0].day) == 1 && r[0].day <= DayOf(now) <= r[6].day
  {
    var days := WeekDays(now);
    seq(7, i requires 0 <= i < 7 => WeeklyEntry(habits, habitLogs, days[i]))
  }

  // ------------------------------------------------------- per-habit summary

  datatype HabitSummary = HabitSummary(
    totalLogs: nat,
    totalCount: int,
    avgPerDay: int,
    streak: nat,
    completionRate: int)

  /** `avgPerDay`: the rounded mean count per log, 0 without logs. */
  function AveragePerLog(logs: seq<HabitLog>): (r: int)
    ensures |logs| == 0 ==> r == 0
    ensures |logs| > 0 ==> 2 * |logs| * r - |logs| <= 2 * SumCounts(logs) < 2 * |logs| * r + |logs|
  {
    if |logs| > 0 then RoundDiv(SumCounts(logs), |logs|) else 0
  }

  /** `completionRate`: the summed count as a rounded percentage of the
      target times the number of logs, 0 without logs. */
  function CompletionRate(target: int, logs: seq<HabitLog>): (r: int)
    requires target >= 1
    ensures |logs| == 0 ==> r == 0
    ensures |logs| > 0 ==> var whole := target * |logs|;
              2 * whole * r - whole <= 200 * SumCounts(logs) < 2 * whole * r + whole
  {
    if |logs| > 0 then RoundDiv(100 * SumCounts(logs), target * |logs|) else 0
  }

  /** Logs whose counts all equal `c` sum to `c` times their number. */
  lemma {:induction false} SumCountsConstant(logs: seq<HabitLog>, c: int)
    requires forall i :: 0 <= i < |logs| ==> logs[i].count == c
    ensures SumCounts(logs) == c * |logs|
  {
    if |logs| > 0 {
      SumCountsConstant(logs[1..], c);
    }
  }

  /** Logs whose counts all lie in `0..c` sum to at most `c` per log. */
  lemma {:induction false} SumCountsBounded(logs: seq<HabitLog>, c: int)
    requires forall i :: 0 <= i < |logs| ==> 0 <= logs[i].count <= c
    ensures 0 <= SumCounts(logs) <= c * |logs|
  {
    if |logs| > 0 {
      SumCountsBounded(logs[1..], c);
    }
  }

  /** Every log carrying exactly the target gives a rate of 100. */
  lemma CompletionRateFull(target: int, logs: seq<HabitLog>)
    requires target >= 1 && |logs| > 0
    requires forall i :: 0 <= i < |logs| ==> logs[i].count == target
    ensures CompletionRate(target, logs) == 100
  {
    SumCountsConstant(logs, target);
    assert 100 * SumCounts(logs) == 100 * (target * |logs|);
    RoundDivExact(100, target * |logs|);
  }

  /** Logs no larger than the target give a rate between 0 and 100. */
  lemma CompletionRateInRange(target: int, logs: seq<HabitLog>)
    requires target >= 1
    requires forall i :: 0 <= i < |logs| ==> 0 <= logs[i].count <= target
    ensures 0 <= CompletionRate(target, logs) <= 100
  {
    if |logs| > 0 {
      var whole := target * |logs|;
      SumCountsBounded(logs, target);
      RoundDivExact(0, whole);
      RoundDivExact(100, whole);
      RoundDivMonotone(0, 100 * SumCounts(logs), whole);
      RoundDivMonotone(100 * SumCounts(logs), 100 * whole, whole);
    }
  }

  /** Logs that all carry the same count average exactly that count. */
  lemma AveragePerLogConstant(logs: seq<HabitLog>, c: int)
    requires |logs| > 0
    requires forall i :: 0 <= i < |logs| ==> logs[i].count == c
    ensures AveragePerLog(logs) == c
  {
    SumCountsConstant(logs, c);
    RoundDivExact(c, |logs|);
  }

  /** The loop's test on one date is the completion rule for its day. */
  lemma WalkStep(habit: Habit, habitLogs: seq<HabitLog>, currentDate: int, dayTotalCount: int)
    requires habit.targetCount >= 1
    requires dayTotalCount == SumCounts(Filter(LogsOf(habitLogs, habit.id), SameDayAs(currentDate)))
    ensures dayTotalCount >= habit.targetCount ==>
              Streak(habit, habitLogs, DayOf(currentDate)) == 1 + Streak(habit, habitLogs, DayOf(currentDate) - 1)
    ensures dayTotalCount < habit.targetCount ==> Streak(habit, habitLogs, DayOf(currentDate)) == 0
  {
    SameDayAsIsOnDay(LogsOf(habitLogs, habit.id), currentDate);
    StreakStep(habit, habitLogs, DayOf(currentDate));
  }

  /** The `while (true)` loop of `getHabitStats`: counts complete days
      backwards from `now` over the habit's own logs, stopping at the first
      incomplete one. */
  method WalkStreak(habit: Habit, habitLogs: seq<HabitLog>, filteredLogs: seq<HabitLog>, now: int)
    returns (streak: nat)
    requires habit.targetCount >= 1
    requires filteredLogs == LogsOf(habitLogs, habit.id)
    ensures streak == Streak(habit, habitLogs, DayOf(now))
  {
    streak := 0;
    var currentDate := now;
    while true
      invariant DayOf(currentDate) == DayOf(now) - streak
      invariant streak + Streak(habit, habitLogs, DayOf(currentDate)) == Streak(habit, habitLogs, DayOf(now))
      decreases Streak(habit, habitLogs, DayOf(currentDate))
    {
      var dayLogs := Filter(filteredLogs, SameDayAs(currentDate));
      var dayTotalCount := SumCounts(dayLogs);
      WalkStep(habit, habitLogs, currentDate, dayTotalCount);
      if dayTotalCount >= habit.targetCount {
        streak := streak + 1;
        currentDate := SubDays(currentDate, 1);
      } else {
        break;
      }
    }
  }

  /** `getHabitStats(habitId)`: `None` (the source's `null`) when no habit
      carries the id; otherwise the habit's log figures and the streak
      found by walking back one day at a time from `now`. */
  method GetHabitStats(habits: seq<Habit>, habitLogs: seq<HabitLog>, habitId: string, now: int)
    returns (r: Option<HabitSummary>)
    requires FindHabit(habits, habitId).Some? ==> FindHabit(habits, habitId).value.targetCount >= 1
    ensures r.None? <==> forall i :: 0 <= i < |habits| ==> habits[i].id != habitId
    ensures r.Some? ==>
              var h := FindHabit(habits, habitId).value;
              var own := LogsOf(habitLogs, habitId);
              && r.value.totalLogs == |own|
              && r.value.totalCount == SumCounts(own)
              && r.value.avgPerDay == AveragePerLog(own)
              && r.value.streak == Streak(h, habitLogs, DayOf(now))
              && r.value.completionRate == CompletionRate(h.targetCount, own)
  {
    var found := FindHabit(habits, habitId);
    if found.None? {
      return None;
    }
    var habit := found.value;
    assert habit.targetCount >= 1;
    var filteredLogs := Filter(habitLogs, ForHabit(habitId));
    var totalLogs := |filteredLogs|;
    var totalCount := SumCounts(filteredLogs);
    var avgPerDay := AveragePerLog(filteredLogs);

    var streak := WalkStreak(habit, habitLogs, filteredLogs, now);
    var completionRate := CompletionRate(habit.targetCount, filteredLogs);
    r := Some(HabitSummary(totalLogs, totalCount, avgPerDay, streak, completionRate));
  }
}

=== FILE: habit_card.dfy ===
/**
 One habit's card: the selected day's total and completion status, the
 progress bar, the count stepper of the quick-log form, and the log
 handler that hands a new log to the dashboard and resets the form.
 */
module HabitCard {
  import opened Types
  import opened Seqs
  import opened Days
  import opened Text
  import opened Completion

  // ------------------------------------------------------- the day's status

  /** `todayLogs`: the card's logs whose `'yyyy-MM-dd'` date is the selected
      date's, that is, the logs of the selected day. */
  function TodayLogs(logs: seq<HabitLog>, selectedDate: int): (r: seq<HabitLog>)
    ensures forall l :: l in r <==> l in logs && DayOf(l.completedAt) == DayOf(selectedDate)
    ensures forall l :: multiset(r)[l] == if DayOf(l.completedAt) == DayOf(selectedDate) then multiset(logs)[l] else 0
  {
    FilterMembers(logs, SameDayAs(selectedDate));
    FilterMultiset(logs, SameDayAs(selectedDate));
    Filter(logs, SameDayAs(selectedDate))
  }

  /** `totalToday`: the summed count of the logs of the selected day. */
  function TotalToday(logs: seq<HabitLog>, selectedDate: int): (r: int)
    ensures r == SumCounts(LogsOnDay(logs, DayOf(selectedDate)))
  {
    SameDayAsIsOnDay(logs, selectedDate);
    SumCounts(TodayLogs(logs, selectedDate))
  }

  /** `isCompleted`: the day's total reaches the target; with a target of at
      least one that needs a log on the selected day. */
  predicate IsCompleted(habit: Habit, logs: seq<HabitLog>, selectedDate: int): (b: bool)
    ensures b <==> TotalToday(logs, selectedDate) >= habit.targetCount
    ensures b && habit.targetCount >= 1 ==>
              exists l :: l in logs && DayOf(l.completedAt) == DayOf(selectedDate)
  {
    var today := TodayLogs(logs, selectedDate);
    assert |today| > 0 ==> today[0] in today;
    TotalToday(logs, selectedDate) >= habit.targetCount
  }

  /** Handed its own logs, as the dashboard does, the card's completion is
      the completion rule for the selected day. */
  lemma CardCompletionIsCompletionRule(habit: Habit, allLogs: seq<HabitLog>, selectedDate: int)
    ensures TotalToday(LogsOf(allLogs, habit.id), selectedDate) == DayTotal(allLogs, habit.id, DayOf(selectedDate))
    ensures IsCompleted(habit, LogsOf(allLogs, habit.id), selectedDate)
            <==> CompletedOn(habit, allLogs, DayOf(selectedDate))
  {
    SameDayAsIsOnDay(LogsOf(allLogs, habit.id), selectedDate);
  }

  datatype Status = Completed | InProgress | NotStarted

  /** The status line and the bar colour: Completed, else In Progress when
      something was logged, else Not Started. */
  function CardStatus(habit: Habit, logs: seq<HabitLog>, selectedDate: int): (s: Status)
    ensures s == Completed <==> IsCompleted(habit, logs, selectedDate)
    ensures s == InProgress <==> !IsCompleted(habit, logs, selectedDate) && TotalToday(logs, selectedDate) > 0
    ensures s == NotStarted <==> !IsCompleted(habit, logs, selectedDate) && TotalToday(logs, selectedDate) <= 0
  {
    if IsCompleted(habit, logs, selectedDate) then Completed
    else if TotalToday(logs, selectedDate) > 0 then InProgress
    else NotStarted
  }

  lemma {:induction false} PositiveSum(logs: seq<HabitLog>)
    requires forall i :: 0 <= i < |logs| ==> logs[i].count >= 1
    ensures SumCounts(logs) >= |logs|
  {
    if |logs| > 0 {
      PositiveSum(logs[1..]);
    }
  }

  /** With a target of at least one and every logged count positive, a card
      is Not Started exactly when nothing was logged on the selected day. */
  lemma NotStartedIffNoLogs(habit: Habit, logs: seq<HabitLog>, selectedDate: int)
    requires habit.targetCount >= 1
    requires forall l :: l in logs ==> l.count >= 1
    ensures CardStatus(habit, logs, selectedDate) == NotStarted <==> |TodayLogs(logs, selectedDate)| == 0
  {
    var today := TodayLogs(logs, selectedDate);
    assert forall i :: 0 <= i < |today| ==> today[i] in logs;
    PositiveSum(today);
  }

  /** The progress bar's width in percent:
      `Math.min((totalToday / target_count) * 100, 100)`. A negative target
      (nothing but the field's `min` attribute rules it out) gives a bar of
      width at most 0 on a card that counts as completed. */
  function ProgressWidth(habit: Habit, logs: seq<HabitLog>, selectedDate: int): (w: real)
    requires habit.targetCount != 0
    ensures w <= 100.0
    ensures w < 100.0 ==> w * (habit.targetCount as real) == 100.0 * (TotalToday(logs, selectedDate) as real)
    ensures habit.targetCount >= 1 && TotalToday(logs, selectedDate) >= 0 ==> w >= 0.0
    ensures habit.targetCount >= 1 ==> (w == 100.0 <==> IsCompleted(habit, logs, selectedDate))
    ensures habit.targetCount < 0 && TotalToday(logs, selectedDate) >= 0 ==>
              w <= 0.0 && IsCompleted(habit, logs, selectedDate)
  {
    BarWidth(TotalToday(logs, selectedDate), habit.targetCount)
  }

  /** `Math.min((total / target) * 100, 100)` for a non-zero target. */
  function BarWidth(total: int, target: int): (w: real)
    requires target != 0
    ensures w <= 100.0
    ensures w < 100.0 ==> w * (target as real) == 100.0 * (total as real)
    ensures target >= 1 ==> (w == 100.0 <==> total >= target)
    ensures target >= 1 && total >= 0 ==> w >= 0.0
    ensures target < 0 && total >= 0 ==> w <= 0.0
  {
    var w := (total as real / target as real) * 100.0;
    if target >= 1 then
      ShareFacts(total, target);
      if w < 100.0 then w else 100.0
    else
      NegativeShareFacts(total, target);
      if w < 100.0 then w else 100.0
  }

  /** For a positive target, `(total / target) * 100` scales back to
      `100 · total`, stays below 100 exactly while the total is short of the
      target, and is not negative for a non-negative total. */
  lemma ShareFacts(total: int, target: int)
    requires target >= 1
    ensures var w := (total as real / target as real) * 100.0;
            && w * (target as real) == 100.0 * (total as real)
            && (w < 100.0 <==> total < target)
            && (total >= 0 ==> w >= 0.0)
  {
    var t, g := total as real, target as real;
    var q := t / g;
    assert q * g == t;
    assert (q * 100.0) * g == 100.0 * (q * g);
    if total < target {
      assert q < 1.0;
    } else {
      assert q >= 1.0;
    }
  }

  /** For a negative target, `(total / target) * 100` still scales back to
      `100 · total`, and a non-negative total gives at most 0. */
  lemma NegativeShareFacts(total: int, target: int)
    requires target < 0
    ensures var w := (total as real / target as real) * 100.0;
            && w * (target as real) == 100.0 * (total as real)
            && (total >= 0 ==> w <= 0.0)
  {
    var t, g := total as real, target as real;
    var q := t / g;
    assert q * g == t;
    assert (q * 100.0) * g == 100.0 * (q * g);
    if total >= 0 {
      assert q <= 0.0;
    }
  }

  /** A negative target with no negative count shows the card as Completed
      while its progress bar is empty. */
  lemma NegativeTargetCompletedEmptyBar(habit: Habit, logs: seq<HabitLog>, selectedDate: int)
    requires habit.targetCount < 0
    requires forall l :: l in logs ==> l.count >= 0
    ensures CardStatus(habit, logs, selectedDate) == Completed
    ensures ProgressWidth(habit, logs, selectedDate) <= 0.0
  {
    var today := LogsOnDay(logs, DayOf(selectedDate));
    FilterMembers(logs, OnDay(DayOf(selectedDate)));
    SumCountsNonNegative(today);
  }

  // ------------------------------------------------------- the quick-log form

  /** The form's state: the stepper's count, the notes field, and whether
      the form is open. */
  datatype LogForm = LogForm(count: int, notes: string, showLogForm: bool)

  const InitialLogForm: LogForm := LogForm(1, "", false)

  /** The minus button: `Math.max(1, count - 1)`. */
  function Decrement(count: int): (r: int)
    ensures r >= 1
    ensures r >= count - 1
    ensures count > 1 ==> r < count
    ensures count <= 1 ==> r == 1
  {
    if count - 1 > 1 then count - 1 else 1
  }

  /** The plus button: `count + 1`. */
  function Increment(count: int): (r: int)
    ensures r > count
  {
    count + 1
  }

  /** Minus undoes plus on any count the stepper can show. */
  lemma DecrementUndoesIncrement(count: int)
    requires count >= 1
    ensures Decrement(Increment(count)) == count
  {
  }

  datatype Press = Minus | Plus

  function ApplyPresses(count: int, presses: seq<Press>): int
    decreases |presses|
  {
    if |presses| == 0 then count
    else ApplyPresses(if presses[0] == Minus then Decrement(count) else Increment(count), presses[1..])
  }

  function Pluses(presses: seq<Press>): nat {
    if |presses| == 0 then 0 else (if presses[0] == Plus then 1 else 0) + Pluses(presses[1..])
  }

  /** From the initial count of 1, no sequence of presses reaches 0, so the
      `count > 0` guard and the disabled button never stop a log; and the
      count never exceeds one more than the number of plus presses. */
  lemma {:induction false} PressesKeepCountPositive(count: int, presses: seq<Press>)
    requires count >= 1
    ensures 1 <= ApplyPresses(count, presses) <= count + Pluses(presses)
    decreases |presses|
  {
    if |presses| > 0 {
      var next := if presses[0] == Minus then Decrement(count) else Increment(count);
      PressesKeepCountPositive(next, presses[1..]);
    }
  }

  /** The log handed to `onLog`. */
  datatype LogRequest = LogRequest(habitId: string, count: int, notes: Option<string>)

  /** `notes.trim() || undefined`. */
  function NotesPayload(notes: string): (r: Option<string>)
    ensures r.None? <==> forall i :: 0 <= i < |notes| ==> IsWhitespace(notes[i])
    ensures r.Some? ==> r.value == Trim(notes) && |r.value| > 0
                        && !IsWhitespace(r.value[0]) && !IsWhitespace(r.value[|r.value| - 1])
  {
    BlankIffAllWhitespace(notes);
    var t := Trim(notes);
    if t == "" then None else Some(t)
  }

  /** `handleLog`: with a positive count, emits the log and resets the
      form; otherwise changes nothing. */
  function HandleLog(habit: Habit, form: LogForm): (r: (LogForm, Option<LogRequest>))
    ensures form.count > 0 ==> r.1 == Some(LogRequest(habit.id, form.count, NotesPayload(form.notes)))
                               && r.0 == InitialLogForm
    ensures form.count <= 0 ==> r.1 == None && r.0 == form
  {
    if form.count > 0 then
      (LogForm(1, "", false), Some(LogRequest(habit.id, form.count, NotesPayload(form.notes))))
    else (form, None)
  }

  /** After any presses from a fresh form, logging always emits exactly the
      stepper's count, which is at least one. */
  lemma LogAfterPresses(habit: Habit, presses: seq<Press>, notes: string)
    ensures var form := LogForm(ApplyPresses(1, presses), notes, true);
            var (after, request) := HandleLog(habit, form);
            && request.Some? && request.value.count == form.count >= 1
            && after == InitialLogForm
  {
    PressesKeepCountPositive(1, presses);
  }
}

=== FILE: habit_stats.dfy ===
/**
 The summary tiles above the habit list: habits completed today and the
 rounded completion rate, the longest current streak over all habits, and
 the number of logs in the last seven days.
 */
module HabitStats {
  import opened Types
  import opened Seqs
  import opened Days
  import opened Rounding
  import opened Completion

  // ------------------------------------------------------------ today

  /** The `completedToday` filter: the habit's logs among ALL the logs the
      tile receives reach its target. The tile does not filter by day; it
      relies on being handed a single day's logs. */
  function ReachesTarget(habitLogs: seq<HabitLog>): Habit -> bool {
    (h: Habit) => SumCounts(LogsOf(habitLogs, h.id)) >= h.targetCount
  }

  function CompletedToday(habits: seq<Habit>, habitLogs: seq<HabitLog>): (n: nat)
    ensures n <= |habits|
  {
    |Filter(habits, ReachesTarget(habitLogs))|
  }

  /** When every log the tile receives is from day `d`, its count is the
      number of habits complete on `d`. */
  lemma CompletedTodayIsCompletionRule(habits: seq<Habit>, habitLogs: seq<HabitLog>, d: int)
    requires forall l :: l in habitLogs ==> DayOf(l.completedAt) == d
    ensures CompletedToday(habits, habitLogs) == CompletedCount(habits, habitLogs, d)
  {
    forall h: Habit
      ensures ReachesTarget(habitLogs)(h) == CompletedPred(habitLogs, d)(h)
    {
      var own := LogsOf(habitLogs, h.id);
      FilterMembers(habitLogs, ForHabit(h.id));
      assert forall i :: 0 <= i < |own| ==> own[i] in own;
      FilterAll(own, OnDay(d));
    }
    FilterExt(habits, ReachesTarget(habitLogs), CompletedPred(habitLogs, d));
  }

  /** `completionRate`: completed habits as a rounded percentage of all
      habits, 0 without habits. */
  function TodayCompletionRate(habits: seq<Habit>, habitLogs: seq<HabitLog>): (r: int)
    ensures |habits| == 0 ==> r == 0
    ensures 0 <= r <= 100
    ensures |habits| > 0 ==> var c := CompletedToday(habits, habitLogs);
              2 * |habits| * r - |habits| <= 200 * c < 2 * |habits| * r + |habits|
    ensures CompletedToday(habits, habitLogs) == |habits| > 0 ==> r == 100
  {
    Percentage(CompletedToday(habits, habitLogs), |habits|)
  }

  // ------------------------------------------------------------ streaks

  /** The streak `calculateStreak(id)` aims at: 0 for an unknown id, else
      the streak of the first habit carrying the id. */
  function HabitStreak(habits: seq<Habit>, habitLogs: seq<HabitLog>, id: string, day: int): (r: nat)
    requires ValidHabits(habits)
    ensures FindHabit(habits, id).None? ==> r == 0
  {
    match FindHabit(habits, id)
    case None => 0
    case Some(h) => Streak(h, habitLogs, day)
  }

  /** The filter of `calculateStreak`: the habit's logs on the current date. */
  function OfHabitOnSameDay(id: string, instant: int): HabitLog -> bool {
    (l: HabitLog) => l.habitId == id && SameDay(l.completedAt, instant)
  }

  lemma OfHabitOnSameDayIsOnDay(habitLogs: seq<HabitLog>, id: string, instant: int)
    ensures Filter(habitLogs, OfHabitOnSameDay(id, instant)) == LogsOnDay(LogsOf(habitLogs, id), DayOf(instant))
  {
    FilterAnd(habitLogs, ForHabit(id), SameDayAs(instant), OfHabitOnSameDay(id, instant));
    SameDayAsIsOnDay(LogsOf(habitLogs, id), instant);
  }

  /** One step of the walk: the loop's test on one date decides whether
      the streak of its day extends that of the day before or is 0. */
  lemma HabitStreakStep(habits: seq<Habit>, habitLogs: seq<HabitLog>, habitId: string, currentDate: int, totalCount: int)
    requires ValidHabits(habits) && FindHabit(habits, habitId).Some?
    requires totalCount == SumCounts(Filter(habitLogs, OfHabitOnSameDay(habitId, currentDate)))
    ensures var h := FindHabit(habits, habitId).value;
            && h.targetCount >= 1
            && (totalCount >= h.targetCount ==>
                  HabitStreak(habits, habitLogs, habitId, DayOf(currentDate))
                  == 1 + HabitStreak(habits, habitLogs, habitId, DayOf(currentDate) - 1))
            && (totalCount < h.targetCount ==> HabitStreak(habits, habitLogs, habitId, DayOf(currentDate)) == 0)
  {
    var h := FindHabit(habits, habitId).value;
    OfHabitOnSameDayIsOnDay(habitLogs, habitId, currentDate);
    StreakStep(h, habitLogs, DayOf(currentDate));
  }

  /** `calculateStreak(habitId)`: looks the habit up on every step, as the
      tile does, and stops at the first day whose summed count falls short. */
  method CalculateStreak(habits: seq<Habit>, habitLogs: seq<HabitLog>, habitId: string, now: int)
    returns (streak: nat)
    requires ValidHabits(habits)
    ensures streak == HabitStreak(habits, habitLogs, habitId, DayOf(now))
  {
    streak := 0;
    var currentDate := now;
    while true
      invariant DayOf(currentDate) == DayOf(now) - streak
      invariant streak + HabitStreak(habits, habitLogs, habitId, DayOf(currentDate))
                == HabitStreak(habits, habitLogs, habitId, DayOf(now))
      decreases HabitStreak(habits, habitLogs, habitId, DayOf(currentDate))
    {
      var dayLogs := Filter(habitLogs, OfHabitOnSameDay(habitId, currentDate));
      var habit := FindHabit(habits, habitId);
      if habit.None? {
        break;
      }
      var totalCount := SumCounts(dayLogs);
      HabitStreakStep(habits, habitLogs, habitId, currentDate, totalCount);
      if totalCount >= habit.value.targetCount {
        streak := streak + 1;
        currentDate := SubDays(currentDate, 1);
      } else {
        break;
      }
    }
  }

  /** The streak `calculateStreak` finds for the `i`-th habit's id. */
  function StreakAt(habits: seq<Habit>, habitLogs: seq<HabitLog>, i: int, day: int): nat
    requires ValidHabits(habits) && 0 <= i < |habits|
  {
    HabitStreak(habits, habitLogs, habits[i].id, day)
  }

  /** The streak of every habit, in list order. */
  function StreaksOf(habits: seq<Habit>, habitLogs: seq<HabitLog>, day: int): (r: seq<nat>)
    requires ValidHabits(habits)
    ensures |r| == |habits|
  {
    seq(|habits|, i requires 0 <= i < |habits| => StreakAt(habits, habitLogs, i, day))
  }

  /** `habits.map(habit => calculateStreak(habit.id))`. */
  method AllStreaks(habits: seq<Habit>, habitLogs: seq<HabitLog>, now: int) returns (streaks: seq<nat>)
    requires ValidHabits(habits)
    ensures streaks == StreaksOf(habits, habitLogs, DayOf(now))
  {
    streaks := [];
    var k := 0;
    while k < |habits|
      invariant 0 <= k <= |habits|
      invariant streaks == StreaksOf(habits, habitLogs, DayOf(now))[..k]
    {
      var s := CalculateStreak(habits, habitLogs, habits[k].id, now);
      ghost var expected := StreaksOf(habits, habitLogs, DayOf(now));
      assert s == expected[k];
      PrefixExtend(expected, k);
      streaks := streaks + [s];
      k := k + 1;
    }
  }

  /** `Math.max(...xs)` on a non-empty list. */
  method MaxOf(xs: seq<nat>) returns (m: nat)
    requires |xs| > 0
    ensures forall i :: 0 <= i < |xs| ==> xs[i] <= m
    ensures m in xs
  {
    m := xs[0];
    var k := 1;
    while k < |xs|
      invariant 1 <= k <= |xs|
      invariant forall i :: 0 <= i < k ==> xs[i] <= m
      invariant m in xs[..k]
    {
      if xs[k] > m {
        m := xs[k];
      }
      assert xs[..k + 1] == xs[..k] + [xs[k]];
      k := k + 1;
    }
  }

  /** `maxStreak`: 0 without habits, else the largest `calculateStreak`
      over the habits' ids. */
  method MaxStreak(habits: seq<Habit>, habitLogs: seq<HabitLog>, now: int) returns (m: nat)
    requires ValidHabits(habits)
    ensures |habits| == 0 ==> m == 0
    ensures forall i :: 0 <= i < |habits| ==> StreaksOf(habits, habitLogs, DayOf(now))[i] <= m
    ensures |habits| > 0 ==> m in StreaksOf(habits, habitLogs, DayOf(now))
  {
    if |habits| == 0 {
      return 0;
    }
    var streaks := AllStreaks(habits, habitLogs, now);
    m := MaxOf(streaks);
  }

  /** The streak of a habit in the list is its own streak: ids found in the
      list always resolve, so the unknown-id case only arises for ids that
      no habit carries. */
  lemma HabitStreakOfListed(habits: seq<Habit>, habitLogs: seq<HabitLog>, i: int, day: int)
    requires ValidHabits(habits) && 0 <= i < |habits|
    requires forall j :: 0 <= j < i ==> habits[j].id != habits[i].id
    ensures HabitStreak(habits, habitLogs, habits[i].id, day) == Streak(habits[i], habitLogs, day)
  {
    var r := FindHabit(habits, habits[i].id);
    var k :| 0 <= k < |habits| && habits[k] == r.value && forall j :: 0 <= j < k ==> habits[j].id != habits[i].id;
    assert !(k < i) && !(i < k);
  }

  // ------------------------------------------------------------ the week

  /** The `weeklyLogs` window test: from the start of the day six days ago
      to the end of today, both inclusive. */
  function InWindow(weekStart: int, weekEnd: int): HabitLog -> bool {
    (l: HabitLog) => weekStart <= l.completedAt <= weekEnd
  }

  /** `weeklyLogs`: exactly the logs of the last seven days, today included,
      in their original order. */
  function WeeklyLogs(habitLogs: seq<HabitLog>, now: int): (r: seq<HabitLog>)
    ensures |r| <= |habitLogs|
    ensures forall l :: l in r <==> l in habitLogs && DayOf(now) - 6 <= DayOf(l.completedAt) <= DayOf(now)
  {
    var weekStart := StartOfDay(DayOf(SubDays(now, 6)));
    var weekEnd := EndOfDay(DayOf(now));
    var r := Filter(habitLogs, InWindow(weekStart, weekEnd));
    FilterMembers(habitLogs, InWindow(weekStart, weekEnd));
    forall l: HabitLog
      ensures InWindow(weekStart, weekEnd)(l) <==> DayOf(now) - 6 <= DayOf(l.completedAt) <= DayOf(now)
    {
      WithinDaysIff(l.completedAt, DayOf(now) - 6, DayOf(now));
    }
    r
  }

  /** The weekly count is the number of logs up to today less the number of
      logs up to seven days ago. */
  lemma {:induction false} WeeklyLogsSplit(habitLogs: seq<HabitLog>, now: int)
    ensures |WeeklyLogs(habitLogs, now)| == |Filter(habitLogs, UpToDay(DayOf(now)))| - |Filter(habitLogs, UpToDay(DayOf(now) - 7))|
  {
    var weekStart := StartOfDay(DayOf(SubDays(now, 6)));
    var weekEnd := EndOfDay(DayOf(now));
    forall l: HabitLog
      ensures InWindow(weekStart, weekEnd)(l) <==> DayOf(now) - 6 <= DayOf(l.completedAt) <= DayOf(now)
    {
      WithinDaysIff(l.completedAt, DayOf(now) - 6, DayOf(now));
    }
    FilterSplitCount(habitLogs, UpToDay(DayOf(now)), UpToDay(DayOf(now) - 7), InWindow(weekStart, weekEnd));
  }
}

=== FILE: reminder_settings.dfy ===
/**
 The reminder settings dialog: the in-memory list of reminders, the add
 form (habit, time, weekdays), and the toggle, delete and weekday-toggle
 handlers. Reminders live only in the dialog's state.
 */
module ReminderSettings {
  import opened Seqs

  datatype Reminder = Reminder(id: string, habitId: string, time: string, enabled: bool, days: seq<string>)

  /** The dialog's state: the list and the add form's fields. */
  datatype Settings = Settings(
    reminders: seq<Reminder>,
    showAddReminder: bool,
    selectedHabit: string,
    reminderTime: string,
    selectedDays: seq<string>)

  const DefaultTime: string := "09:00"

  /** Monday to Friday, the form's default weekdays. */
  const Weekdays: seq<string> := ["monday", "tuesday", "wednesday", "thursday", "friday"]

  /** The seven day keys the form offers, Monday first. */
  const DaysOfWeek: seq<string> := Weekdays + ["saturday", "sunday"]

  /** The dialog as it opens. */
  const InitialSettings: Settings := Settings([], false, "", DefaultTime, Weekdays)

  /** `handleAddReminder`, with the `Date.now()` id supplied as `freshId`:
      nothing happens without a habit or without days; otherwise one enabled
      reminder is appended and the form returns to its defaults. */
  function AddReminder(s: Settings, freshId: string): (r: Settings)
    ensures s.selectedHabit == "" || |s.selectedDays| == 0 ==> r == s
    ensures s.selectedHabit != "" && |s.selectedDays| > 0 ==>
              && r.reminders == s.reminders + [Reminder(freshId, s.selectedHabit, s.reminderTime, true, s.selectedDays)]
              && r == InitialSettings.(reminders := r.reminders)
  {
    if s.selectedHabit == "" || |s.selectedDays| == 0 then s
    else
      var newReminder := Reminder(freshId, s.selectedHabit, s.reminderTime, true, s.selectedDays);
      Settings(s.reminders + [newReminder], false, "", DefaultTime, Weekdays)
  }

  /** A successful add keeps every earlier reminder in place and puts the
      new one last. */
  lemma AddKeepsEarlier(s: Settings, freshId: string)
    requires s.selectedHabit != "" && |s.selectedDays| > 0
    ensures var r := AddReminder(s, freshId).reminders;
            && |r| == |s.reminders| + 1
            && (forall i :: 0 <= i < |s.reminders| ==> r[i] == s.reminders[i])
            && r[|s.reminders|].enabled && r[|s.reminders|].id == freshId
  {
  }

  /** `handleToggleReminder`: flips `enabled` on the reminders carrying the
      id and leaves every other field and reminder alone. */
  function ToggleReminder(reminders: seq<Reminder>, reminderId: string): (r: seq<Reminder>)
    ensures |r| == |reminders|
    ensures forall i :: 0 <= i < |r| ==>
              r[i].(enabled := reminders[i].enabled) == reminders[i]
              && (r[i].enabled != reminders[i].enabled <==> reminders[i].id == reminderId)
  {
    seq(|reminders|, i requires 0 <= i < |reminders| =>
      var x := reminders[i];
      if x.id == reminderId then x.(enabled := !x.enabled) else x)
  }

  /** Toggling the same reminder twice restores the list. */
  lemma ToggleTwice(reminders: seq<Reminder>, reminderId: string)
    ensures ToggleReminder(ToggleReminder(reminders, reminderId), reminderId) == reminders
  {
    var once := ToggleReminder(reminders, reminderId);
    var twice := ToggleReminder(once, reminderId);
    forall i | 0 <= i < |reminders|
      ensures twice[i] == reminders[i]
    {
      assert once[i].id == reminders[i].id;
    }
  }

  function Keeps(reminderId: string): Reminder -> bool {
    (x: Reminder) => x.id != reminderId
  }

  /** `handleDeleteReminder`: drops exactly the reminders carrying the id,
      keeping the rest in order. */
  function DeleteReminder(reminders: seq<Reminder>, reminderId: string): (r: seq<Reminder>)
    ensures forall x :: x in r <==> x in reminders && x.id != reminderId
    ensures forall x :: multiset(r)[x] == if x.id != reminderId then multiset(reminders)[x] else 0
    ensures |r| <= |reminders|
  {
    FilterMembers(reminders, Keeps(reminderId));
    FilterMultiset(reminders, Keeps(reminderId));
    Filter(reminders, Keeps(reminderId))
  }

  /** The kept reminders keep their relative order. */
  lemma DeleteKeepsOrder(reminders: seq<Reminder>, reminderId: string)
    ensures IsSubsequence(DeleteReminder(reminders, reminderId), reminders)
  {
    FilterIsSubsequence(reminders, Keeps(reminderId));
  }

  /** Deleting a reminder just added under an id no other reminder carries
      gives back the earlier list. */
  lemma DeleteUndoesAdd(s: Settings, freshId: string)
    requires s.selectedHabit != "" && |s.selectedDays| > 0
    requires forall x :: x in s.reminders ==> x.id != freshId
    ensures DeleteReminder(AddReminder(s, freshId).reminders, freshId) == s.reminders
  {
    var added := Reminder(freshId, s.selectedHabit, s.reminderTime, true, s.selectedDays);
    FilterConcat(s.reminders, [added], Keeps(freshId));
    FilterAll(s.reminders, Keeps(freshId));
  }

  function Other(day: string): string -> bool {
    (d: string) => d != day
  }

  /** `toggleDay`: removes every occurrence of a selected day, keeping every
      other entry as often as it occurs, and appends an unselected one. */
  function ToggleDay(days: seq<string>, day: string): (r: seq<string>)
    ensures day in r <==> day !in days
    ensures forall d :: d != day ==> (d in r <==> d in days)
    ensures day !in days ==> r == days + [day]
    ensures day in days ==> forall d :: multiset(r)[d] == if d != day then multiset(days)[d] else 0
  {
    FilterMembers(days, Other(day));
    FilterMultiset(days, Other(day));
    if day in days then Filter(days, Other(day)) else days + [day]
  }

  /** Toggling the same day twice gives back the same set of days, and the
      very same list when the day was not selected. */
  lemma ToggleDayTwice(days: seq<string>, day: string)
    ensures forall d :: d in ToggleDay(ToggleDay(days, day), day) <==> d in days
    ensures day !in days ==> ToggleDay(ToggleDay(days, day), day) == days
  {
    if day !in days {
      FilterConcat(days, [day], Other(day));
      FilterAll(days, Other(day));
    }
  }
}

=== FILE: rounding.dfy ===
/**
 `Math.round` applied to a quotient, computed exactly on integers, and the
 completion percentage every chart and counter shows.
 */
module Rounding {

  /** `Math.round(n / d)`: the integer nearest to n/d, halves rounded up. */
  function RoundDiv(n: int, d: int): (r: int)
    requires d > 0
    ensures 2 * d * r - d <= 2 * n < 2 * d * r + d
  {
    var r := (2 * n + d) / (2 * d);
    assert 2 * d * r <= 2 * n + d < 2 * d * r + 2 * d;
    r
  }

  /** Rounding is monotone in the numerator. */
  lemma RoundDivMonotone(a: int, b: int, d: int)
    requires d > 0 && a <= b
    ensures RoundDiv(a, d) <= RoundDiv(b, d)
  {
    var ra, rb := RoundDiv(a, d), RoundDiv(b, d);
    if ra > rb {
      assert 2 * d * rb + 2 * d <= 2 * d * ra by {
        assert rb + 1 <= ra;
        MulLeftMonotone(2 * d, rb + 1, ra);
      }
    }
  }

  lemma MulLeftMonotone(k: int, x: int, y: int)
    requires k >= 0 && x <= y
    ensures k * x <= k * y
  {
  }

  /** An exact multiple rounds to its quotient. */
  lemma RoundDivExact(q: int, d: int)
    requires d > 0
    ensures RoundDiv(q * d, d) == q
  {
    var r := RoundDiv(q * d, d);
    if r < q {
      MulLeftMonotone(2 * d, r + 1, q);
    } else if r > q {
      MulLeftMonotone(2 * d, q + 1, r);
    }
  }

  /** `total > 0 ? Math.round((part / total) * 100) : 0`. */
  function Percentage(part: int, total: int): (r: int)
    ensures total <= 0 ==> r == 0
    ensures part == 0 ==> r == 0
    ensures total > 0 && part == total ==> r == 100
    ensures total > 0 && 0 <= part <= total ==> 0 <= r <= 100
    ensures total > 0 ==> 2 * total * r - total <= 200 * part < 2 * total * r + total
  {
    if total > 0 then
      RoundDivExact(0, total);
      RoundDivExact(100, total);
      if 0 <= part <= total then
        RoundDivMonotone(0, 100 * part, total);
        RoundDivMonotone(100 * part, 100 * total, total);
        RoundDiv(100 * part, total)
      else
        RoundDiv(100 * part, total)
    else 0
  }
}

=== FILE: seqs.dfy ===
/**
 Order-preserving filtering of sequences, the `Array.prototype.filter` every
 component of the dashboard uses, with the facts the other modules need.
 */
module Seqs {

  /** The elements of `s` satisfying `p`, in their original order. */
  function Filter<T>(s: seq<T>, p: T -> bool): (r: seq<T>)
    ensures |r| <= |s|
  {
    if |s| == 0 then []
    else if p(s[0]) then [s[0]] + Filter(s[1..], p)
    else Filter(s[1..], p)
  }

  /** Extending a prefix by the next element. */
  lemma PrefixExtend<T>(xs: seq<T>, k: int)
    requires 0 <= k < |xs|
    ensures xs[..k] + [xs[k]] == xs[..k + 1]
  {
  }

  /** Filtering keeps exactly the elements satisfying the predicate. */
  lemma {:induction false} FilterMembers<T(!new)>(s: seq<T>, p: T -> bool)
    ensures forall x :: x in Filter(s, p) <==> x in s && p(x)
  {
    if |s| > 0 {
      FilterMembers(s[1..], p);
      assert forall x :: x in s <==> x == s[0] || x in s[1..];
    }
  }

  /** `a` can be obtained from `b` by deleting elements (relative order kept). */
  predicate IsSubsequence<T(==)>(a: seq<T>, b: seq<T>)
    decreases |b|
  {
    if |a| == 0 then true
    else if |b| == 0 then false
    else if a[0] == b[0] then IsSubsequence(a[1..], b[1..])
    else IsSubsequence(a, b[1..])
  }

  /** Prepending an element to the larger sequence keeps a subsequence. */
  lemma {:induction false} SubsequenceOfTail<T>(a: seq<T>, b: seq<T>)
    requires |b| > 0 && IsSubsequence(a, b[1..])
    ensures IsSubsequence(a, b)
    decreases |b|, 0
  {
    if |a| > 0 && a[0] == b[0] {
      SubsequenceDropHead(a, b[1..]);
    }
  }

  /** Dropping the first element of the smaller sequence keeps a subsequence. */
  lemma {:induction false} SubsequenceDropHead<T>(a: seq<T>, b: seq<T>)
    requires |a| > 0 && IsSubsequence(a, b)
    ensures IsSubsequence(a[1..], b)
    decreases |b|, 1
  {
    if a[0] == b[0] {
      SubsequenceOfTail(a[1..], b);
    } else {
      SubsequenceDropHead(a, b[1..]);
      SubsequenceOfTail(a[1..], b);
    }
  }

  /** A filtered sequence keeps the relative order of what it retains. */
  lemma {:induction false} FilterIsSubsequence<T(!new)>(s: seq<T>, p: T -> bool)
    ensures IsSubsequence(Filter(s, p), s)
  {
    if |s| > 0 {
      FilterIsSubsequence(s[1..], p);
      if p(s[0]) {
        assert Filter(s, p)[1..] == Filter(s[1..], p);
      } else {
        SubsequenceOfTail(Filter(s, p), s);
      }
    }
  }

  /** Filtering keeps every retained element exactly as often as it occurs. */
  lemma {:induction false} FilterMultiset<T(!new)>(s: seq<T>, p: T -> bool)
    ensures forall x :: multiset(Filter(s, p))[x] == if p(x) then multiset(s)[x] else 0
  {
    if |s| > 0 {
      FilterMultiset(s[1..], p);
      assert s == [s[0]] + s[1..];
    }
  }

  lemma {:induction false} FilterConcat<T(!new)>(a: seq<T>, b: seq<T>, p: T -> bool)
    ensures Filter(a + b, p) == Filter(a, p) + Filter(b, p)
  {
    if |a| > 0 {
      assert (a + b)[1..] == a[1..] + b;
      FilterConcat(a[1..], b, p);
    } else {
      assert a + b == b;
    }
  }

  /** Filters with pointwise-equal predicates agree. */
  lemma {:induction false} FilterExt<T(!new)>(s: seq<T>, p: T -> bool, q: T -> bool)
    requires forall x :: p(x) == q(x)
    ensures Filter(s, p) == Filter(s, q)
  {
    if |s| > 0 {
      FilterExt(s[1..], p, q);
    }
  }

  /** Two filters applied one after the other commute. */
  lemma {:induction false} FilterCommute<T(!new)>(s: seq<T>, p: T -> bool, q: T -> bool)
    ensures Filter(Filter(s, p), q) == Filter(Filter(s, q), p)
  {
    if |s| > 0 {
      FilterCommute(s[1..], p, q);
      if p(s[0]) {
        assert Filter(Filter(s, p), q) == Filter([s[0]] + Filter(s[1..], p), q);
        FilterConcat([s[0]], Filter(s[1..], p), q);
      }
      if q(s[0]) {
        assert Filter(Filter(s, q), p) == Filter([s[0]] + Filter(s[1..], q), p);
        FilterConcat([s[0]], Filter(s[1..], q), p);
      }
    }
  }

  /** Filtering by a conjunction is filtering twice. */
  lemma {:induction false} FilterAnd<T(!new)>(s: seq<T>, p: T -> bool, q: T -> bool, pq: T -> bool)
    requires forall x :: pq(x) == (p(x) && q(x))
    ensures Filter(s, pq) == Filter(Filter(s, p), q)
  {
    if |s| > 0 {
      FilterAnd(s[1..], p, q, pq);
      if p(s[0]) {
        FilterConcat([s[0]], Filter(s[1..], p), q);
        assert Filter(s, p) == [s[0]] + Filter(s[1..], p);
      }
    }
  }

  /** A predicate that holds of every element filters nothing out. */
  lemma {:induction false} FilterAll<T(!new)>(s: seq<T>, p: T -> bool)
    requires forall i :: 0 <= i < |s| ==> p(s[i])
    ensures Filter(s, p) == s
  {
    if |s| > 0 {
      FilterAll(s[1..], p);
    }
  }

  /** Counting with a predicate that splits into two disjoint cases. */
  lemma {:induction false} FilterSplitCount<T(!new)>(s: seq<T>, p: T -> bool, q: T -> bool, r: T -> bool)
    requires forall x :: p(x) == (q(x) || r(x))
    requires forall x :: !(q(x) && r(x))
    ensures |Filter(s, p)| == |Filter(s, q)| + |Filter(s, r)|
  {
    if |s| > 0 {
      FilterSplitCount(s[1..], p, q, r);
    }
  }
}

=== FILE: text.dfy ===
/**
 The two string primitives the forms rely on: `String.prototype.trim`
 (section 22.1.3.32 of ECMA-262) and the global `parseInt` without a radix
 (section 19.2.5 of ECMA-262), with the decimal rendering of an integer as
 the partner of `parseInt`.
 */
module Text {
  import opened Types

  /** ECMAScript WhiteSpace and LineTerminator code points. */
  predicate IsWhitespace(c: char) {
    var n := c as int;
    n == 0x09 || n == 0x0A || n == 0x0B || n == 0x0C || n == 0x0D || n == 0x20
    || n == 0xA0 || n == 0x1680 || (0x2000 <= n <= 0x200A) || n == 0x2028
    || n == 0x2029 || n == 0x202F || n == 0x205F || n == 0x3000 || n == 0xFEFF
  }

  /** Removes leading white space. */
  function TrimStart(s: string): (r: string)
    ensures |r| <= |s| && r == s[|s| - |r|..]
    ensures forall i :: 0 <= i < |s| - |r| ==> IsWhitespace(s[i])
    ensures |r| > 0 ==> !IsWhitespace(r[0])
  {
    if |s| > 0 && IsWhitespace(s[0]) then TrimStart(s[1..]) else s
  }

  /** Removes trailing white space. */
  function TrimEnd(s: string): (r: string)
    ensures |r| <= |s| && r == s[..|r|]
    ensures forall i :: |r| <= i < |s| ==> IsWhitespace(s[i])
    ensures |r| > 0 ==> !IsWhitespace(r[|r| - 1])
  {
    if |s| > 0 && IsWhitespace(s[|s| - 1]) then TrimEnd(s[..|s| - 1]) else s
  }

  /** `s.trim()`: the longest infix of `s` without white space at either end. */
  function Trim(s: string): (r: string)
    ensures |r| > 0 ==> !IsWhitespace(r[0]) && !IsWhitespace(r[|r| - 1])
    ensures var i := |s| - |TrimStart(s)|;
            && i + |r| <= |s| && r == s[i..i + |r|]
            && (forall k :: 0 <= k < i ==> IsWhitespace(s[k]))
            && (forall k :: i + |r| <= k < |s| ==> IsWhitespace(s[k]))
  {
    TrimEnd(TrimStart(s))
  }

  /** JavaScript's `!s.trim()`: the string is empty or white space only. */
  predicate IsBlank(s: string) {
    Trim(s) == ""
  }

  lemma BlankIffAllWhitespace(s: string)
    ensures IsBlank(s) <==> forall i :: 0 <= i < |s| ==> IsWhitespace(s[i])
  {
    var r := Trim(s);
    if r != "" {
      var i := |s| - |TrimStart(s)|;
      assert s[i] == r[0];
    }
  }

  lemma TrimIdempotent(s: string)
    ensures Trim(Trim(s)) == Trim(s)
  {
    var r := Trim(s);
    assert TrimStart(r) == r;
    assert TrimEnd(r) == r;
  }

  // ---------------------------------------------------------------- parseInt

  predicate IsDigitIn(c: char, radix: int) {
    if radix == 16 then ('0' <= c <= '9') || ('a' <= c <= 'f') || ('A' <= c <= 'F')
    else '0' <= c <= '9'
  }

  function DigitValue(c: char): (v: nat)
    requires IsDigitIn(c, 16)
    ensures v < 16
    ensures '0' <= c <= '9' ==> v < 10
  {
    if '0' <= c <= '9' then c as int - '0' as int
    else if 'a' <= c <= 'f' then c as int - 'a' as int + 10
    else c as int - 'A' as int + 10
  }

  /** Length of the longest prefix of `s` made of digits of `radix`. */
  function DigitRun(s: string, radix: int): (n: nat)
    ensures n <= |s|
    ensures forall i :: 0 <= i < n ==> IsDigitIn(s[i], radix)
    ensures n < |s| ==> !IsDigitIn(s[n], radix)
  {
    if |s| > 0 && IsDigitIn(s[0], radix) then 1 + DigitRun(s[1..], radix) else 0
  }

  /** Positional value of a digit string, most significant digit first. */
  function DigitsValue(ds: string, radix: int): nat
    requires radix == 10 || radix == 16
    requires forall i :: 0 <= i < |ds| ==> IsDigitIn(ds[i], radix)
  {
    if |ds| == 0 then 0
    else
      var last := ds[|ds| - 1];
      assert IsDigitIn(last, radix);
      DigitsValue(ds[..|ds| - 1], radix) * radix + DigitValue(last)
  }

  /** The digits after an optional sign: a `0x`/`0X` prefix selects radix 16,
      the longest run of digits is read, and no digit at all is NaN. */
  predicate HexPrefix(u: string) {
    |u| >= 2 && u[0] == '0' && (u[1] == 'x' || u[1] == 'X')
  }

  function ParseUnsigned(u: string): Option<nat> {
    var hex := HexPrefix(u);
    var radix := if hex then 16 else 10;
    var digits := if hex then u[2..] else u;
    var n := DigitRun(digits, radix);
    if n == 0 then None else Some(DigitsValue(digits[..n], radix))
  }

  /** `parseInt(s)`; `None` stands for NaN. Leading white space is skipped;
      nothing left is NaN, a result below zero needs a minus sign, and a
      decimal digit (not opening a `0x` prefix) always yields a number. */
  function ParseInt(s: string): (r: Option<int>)
    ensures TrimStart(s) == "" ==> r.None?
    ensures r.Some? ==> |TrimStart(s)| > 0 && (r.value < 0 ==> TrimStart(s)[0] == '-')
    ensures var t := TrimStart(s);
            |t| > 0 && IsDigitIn(t[0], 10) && !HexPrefix(t) ==> r.Some? && r.value >= 0
  {
    var t := TrimStart(s);
    var negative := |t| > 0 && t[0] == '-';
    var u := if |t| > 0 && (t[0] == '-' || t[0] == '+') then t[1..] else t;
    LeadingDigitParses(u);
    Signed(negative, ParseUnsigned(u))
  }

  /** Nothing to read is NaN; a leading decimal digit outside a `0x` prefix
      is read. */
  lemma LeadingDigitParses(u: string)
    ensures u == "" ==> ParseUnsigned(u).None?
    ensures |u| > 0 && IsDigitIn(u[0], 10) && !HexPrefix(u) ==> ParseUnsigned(u).Some?
  {
    if |u| > 0 && IsDigitIn(u[0], 10) && !HexPrefix(u) {
      assert DigitRun(u, 10) >= 1;
    }
  }

  function Signed(negative: bool, magnitude: Option<nat>): Option<int> {
    match magnitude
    case None => None
    case Some(m) => Some(if negative then -(m as int) else m)
  }

  /** A blank input has no digits: NaN. */
  lemma ParseBlankIsNaN(s: string)
    requires IsBlank(s)
    ensures ParseInt(s) == None
  {
    assert TrimStart(s) == "";
  }

  // ------------------------------------------------- decimal rendering

  function DigitChar(d: nat): (c: char)
    requires d < 10
    ensures IsDigitIn(c, 10) && DigitValue(c) == d
  {
    ['0', '1', '2', '3', '4', '5', '6', '7', '8', '9'][d]
  }

  /** Decimal digits of `n` without leading zeros. */
  function ShowNat(n: nat): (s: string)
    ensures |s| > 0
    ensures forall i :: 0 <= i < |s| ==> IsDigitIn(s[i], 10)
  {
    if n < 10 then [DigitChar(n)] else ShowNat(n / 10) + [DigitChar(n % 10)]
  }

  /** `String(n)` for an integer `n`. */
  function ShowInt(n: int): string {
    if n < 0 then "-" + ShowNat(-n) else ShowNat(n)
  }

  lemma {:induction false} ShowNatValue(n: nat)
    ensures DigitsValue(ShowNat(n), 10) == n
  {
    if n >= 10 {
      var s := ShowNat(n);
      assert s[..|s| - 1] == ShowNat(n / 10);
      ShowNatValue(n / 10);
    }
  }

  lemma DecimalDigitsParse(ds: string)
    requires |ds| > 0 && forall i :: 0 <= i < |ds| ==> IsDigitIn(ds[i], 10)
    ensures ParseUnsigned(ds) == Some(DigitsValue(ds, 10))
  {
    assert !IsDigitIn('x', 10) && !IsDigitIn('X', 10);
    assert DigitRun(ds, 10) == |ds|;
    assert ds[..|ds|] == ds;
  }

  /** A string that starts with a decimal digit is not trimmed and has no sign. */
  lemma UnsignedDecimalParse(ds: string)
    requires |ds| > 0 && forall i :: 0 <= i < |ds| ==> IsDigitIn(ds[i], 10)
    ensures ParseInt(ds) == Some(DigitsValue(ds, 10))
  {
    assert !IsWhitespace(ds[0]);
    assert TrimStart(ds) == ds;
    DecimalDigitsParse(ds);
  }

  lemma NegativeDecimalParse(ds: string)
    requires |ds| > 0 && forall i :: 0 <= i < |ds| ==> IsDigitIn(ds[i], 10)
    ensures ParseInt("-" + ds) == Signed(true, Some(DigitsValue(ds, 10)))
  {
    NegativeSignParse(ds);
    DecimalDigitsParse(ds);
  }

  lemma NegativeSignParse(ds: string)
    ensures ParseInt("-" + ds) == Signed(true, ParseUnsigned(ds))
  {
    var s := "-" + ds;
    assert !IsWhitespace(s[0]);
    assert TrimStart(s) == s;
    assert s[1..] == ds;
  }

  lemma NegativeShownValue(m: nat)
    ensures Signed(true, Some(DigitsValue(ShowNat(m), 10))) == Some(-(m as int))
  {
    ShowNatValue(m);
  }

  lemma NegativeShownParse(m: nat)
    ensures ParseInt("-" + ShowNat(m)) == Some(-(m as int))
  {
    NegativeDecimalParse(ShowNat(m));
    NegativeShownValue(m);
  }

  lemma NegativeRoundTrip(n: int)
    requires n < 0
    ensures ParseInt(ShowInt(n)) == Some(n)
  {
    var m: nat := -n;
    NegativeShownParse(m);
    assert ShowInt(n) == "-" + ShowNat(m);
  }

  /** `parseInt` reads back the decimal rendering of any integer. */
  lemma ParseShowRoundTrip(n: int)
    ensures ParseInt(ShowInt(n)) == Some(n)
  {
    if n < 0 {
      NegativeRoundTrip(n);
    } else {
      ShowNatValue(n);
      UnsignedDecimalParse(ShowNat(n));
    }
  }
}

=== FILE: types.dfy ===
/**
 The database record shapes of the habit tracker (the `habits` and
 `habit_logs` tables) and the fixed category list.

 A log's `completed_at` instant is carried as an integer number of
 milliseconds in the user's LOCAL time (the UTC instant shifted by the
 local offset), so that calendar days are plain integer divisions; see
 module Days.
 */
module Types {

  datatype Option<T> = None | Some(value: T)

  datatype Result<T, E> = Success(value: T) | Failure(error: E)

  datatype Frequency = Daily | Weekly | Monthly

  datatype Habit = Habit(
    id: string,
    userId: string,
    title: string,
    description: Option<string>,
    frequency: Frequency,
    targetCount: int,
    color: string,
    category: string,
    createdAt: string,
    updatedAt: string)

  datatype HabitLog = HabitLog(
    id: string,
    habitId: string,
    userId: string,
    completedAt: int,   // local-time milliseconds
    count: int,
    notes: Option<string>)

  /** The predefined categories, in display order. */
  const HabitCategories: seq<string> := [
    "Health & Fitness",
    "Learning & Education",
    "Productivity",
    "Mindfulness",
    "Social",
    "Creative",
    "Financial",
    "Other"
  ]

  /** The data invariant the form's `min="1"` attribute is meant to keep. */
  predicate ValidHabits(habits: seq<Habit>) {
    forall i :: 0 <= i < |habits| ==> habits[i].targetCount >= 1
  }

  /** `habits.find(h => h.id === id)`: the first habit carrying `id`. */
  function FindHabit(habits: seq<Habit>, id: string): (r: Option<Habit>)
    ensures r.None? <==> forall i :: 0 <= i < |habits| ==> habits[i].id != id
    ensures r.Some? ==> r.value in habits && r.value.id == id
    ensures r.Some? ==> exists i :: 0 <= i < |habits| && habits[i] == r.value
                                    && forall j :: 0 <= j < i ==> habits[j].id != id
  {
    if |habits| == 0 then None
    else if habits[0].id == id then Some(habits[0])
    else
      var r := FindHabit(habits[1..], id);
      assert forall i :: 1 <= i < |habits| ==> habits[i] == habits[1..][i - 1];
      r
  }
}
